=== FILE: README.md ===
# NoteMate core, modelled in Dafny

NoteMate is a sticky-note application: a React client that keeps a cache of
notes in the browser's storage and an Express/Mongoose server that stores
notes per user. This project models the logic that decides what the user
sees and what gets stored:

- the client's storage adapter (`localStorage` and `sessionStorage` through
  `JSON.stringify` / `JSON.parse`), with an integer-only JSON model and the
  round trip it guarantees (`jstext.dfy`, `json.dfy`, `storage.dfy`);
- note ownership and the notes page: the cache reconciliation of
  `fetchNotes`, the search filter and `refreshNotes` (`notes.dfy`,
  `reconcile.dfy`, `search.dfy`, `lists.dfy`);
- the note card's save, delete and colour change (`card.dfy`);
- the sidebar's "Add Note", logout clean-up and statistics summary, with the
  colour histogram and the colour names (`sidebar.dfy`, `tally.dfy`,
  `palette.dfy`);
- the dashboard's statistics effect (`dashboard.dfy`) and greeting
  (`greeting.dfy`);
- the login page's validator, field edits, tab switch and the session writes
  of a successful sign-in (`login.dfy`);
- the server's note schema and the five note controllers over an abstract
  collection, and the CORS origin check (`server.dfy`, `cors.dfy`).

Everything is a pure function over immutable values, except eight methods:
`Tally.MostUsed`, `Dashboard.Scan` and `Login.TestEmail` are the source's
loops, `Dashboard.Visit` is the body of the scan's `forEach` callback, and
`Sidebar.StatsSummary`, `Dashboard.Update`, `Login.ValidateForm` and
`Login.Signin` build on them. The clock, the network, the random or
database-assigned ids and the answers of the server are parameters.

Some behaviours are worth knowing before reading the contracts; each
follows the code:

- The login page writes `auth_key` and `user_id` to the session area, and
  the session getters read only that area. The notes page, the note card and
  the sidebar read `user_id` and `auth_key` from the durable area.
- A login response without a `token` stores the text `undefined` as the
  session token. It does not parse as JSON, so it reads back as the truthy
  string "undefined" (`Login.MissingTokenIsTruthy`).
- `fetchNotes` does not prune empty notes. It shows only the cached notes
  whose `String(userId)` equals the stored id, so it does not take
  owner-less cached notes into the current user's list, with one exception:
  when the stored id is the text "undefined" (or "null"), a note without an
  owner (or with a `null` one) matches it and is shown, stamped with that id
  (`Notes.MineAndOthersDisjoint`, `Reconcile.UndefinedIdAdoptsOwnerless`).
  The cache is rewritten only from the server's list or from the samples.
- Mongoose rejects a missing or empty required `text`, so creating a note
  with empty text answers 500, not 201.
- The schema's `createdAt` default is computed once, when the schema is
  defined. The card sends a `createdAt` with a new note, but the create
  controller takes only `text` and `color` from the request body and drops
  it. Every note one server process creates therefore carries the same
  `createdAt`; a new process, such as a cold start of a serverless
  deployment, computes a new one (`Server.CreatesShareCreatedAt`).
- The dashboard treats a note of white space only as having content; the
  sidebar and logout treat it as empty (`Dashboard.WhiteSpaceIsContent`).

## Model

| member | source | states |
|---|---|---|
| JsText.Trim | client/src/pages/notes/index.js:34 | `trim()` leaves no white space at either end and is empty exactly when the text is all white space |
| JsText.Utf16Length | client/src/components/dashboard.js:35 | `length` counts UTF-16 code units: between one and two per character, zero only for the empty text |
| Lists.FilterSublist | client/src/pages/notes/index.js:37-39 | `filter` keeps an order-preserving sublist of its input |
| Lists.FilterIdempotent | client/src/pages/notes/index.js:166-168 | filtering twice with one predicate is filtering once |
| Lists.FilterShrinks | client/src/components/shared/sidebar/index.js:110-113 | a filter keeps every element exactly when the predicate holds of all of them |
| Json.Lookup | client/src/pages/login/index.js:113-118 | a property read finds a field of the object with that key, and finds nothing only when no field has the key |
| Json.NatText | client/src/components/shared/sidebar/index.js:35 | the decimal text of a number is non-empty, all digits, and has no leading zero |
| Json.RoundTrip | client/src/utils/localStorage.js:4-22 | parsing the JSON text of any value a JavaScript object graph can hold (integers, strings, arrays, objects with distinct keys) gives the value back |
| Storage.Add | client/src/utils/localStorage.js:4-8 | a write with a window stores the value's JSON text under the key, and changes nothing else; without a window it changes nothing |
| Storage.Get | client/src/utils/localStorage.js:10-22 | a read is `null` without a window or for a missing or empty value, the parsed value for JSON text, and the raw text otherwise |
| Storage.Remove | client/src/utils/localStorage.js:24-28 | a removal with a window drops the key from its area and changes nothing else |
| Json.Stringify | client/src/utils/localStorage.js:6 | the JSON text of a value is never empty, so a stored value is never read as missing |
| Json.Parse | client/src/utils/localStorage.js:15 | text that is empty or all white space is not JSON; `Json.RoundTrip` states what parsing a stored text gives |
| Storage.AddThenGet | client/src/utils/localStorage.js:4-22 | writing a value and reading it back from the same area gives the value |
| Storage.RemoveThenGet | client/src/utils/localStorage.js:24-28 | a removed key reads as `null` |
| Storage.WriteFrame | client/src/utils/localStorage.js:31-55 | writing or removing a key changes no other key of its area and nothing of the other area |
| Storage.NoWindow | client/src/utils/localStorage.js:5 | without a window every write is a no-op and every read is `null` |
| Storage.BareWordReadsAsText | client/src/utils/localStorage.js:37-49 | the text `undefined` that a write of `undefined` leaves reads back as a truthy string, not as a missing value |
| Storage.GettersReadSessionOnly | client/src/utils/localStorage.js:58-68 | the token, user id and user name getters do not depend on the durable area |
| Notes.CurrentOwner | client/src/components/cards/note/index.js:123 | the owner a save records is truthy exactly when a user id is stored, and then reads as that id |
| Notes.IsOwnedByUser | client/src/components/cards/note/index.js:24 | a note without a truthy owner is owned by anyone; a note with one is owned exactly when the owner's text is the current user id |
| Notes.OthersAreNotOwned | client/src/components/cards/note/index.js:24 | for a signed-in user, the cache's "other users' notes" are exactly the notes the card refuses to change |
| Notes.MineAndOthersDisjoint | client/src/pages/notes/index.js:70-85 | no note is both the user's and another user's; a note without an owner is neither, unless the stored id is the text "undefined" |
| Notes.StampOwned | client/src/pages/notes/index.js:99-102 | every stamped note is the user's by the strict, the coercing and the card's comparison alike |
| Reconcile.FetchNotes | client/src/pages/notes/index.js:55-154 | without a user id nothing changes; whatever is shown belongs to the user; a cache write is always the shown list followed by the other users' cached notes |
| Reconcile.CacheHit | client/src/pages/notes/index.js:66-91 | with cached notes of the user, those notes are shown in cached order and the cache is never rewritten |
| Reconcile.CacheHitShowsStoredNotes | client/src/pages/notes/index.js:74-79 | for an ordinary user id, the stamped cached notes are the cached notes themselves |
| Reconcile.UndefinedIdAdoptsOwnerless | client/src/pages/notes/index.js:70-90 | when the stored id is the text "undefined", a cached note without an owner is shown, stamped with that id |
| Reconcile.ServerNotesAdopted | client/src/pages/notes/index.js:97-113 | with no cached notes, a token and a non-empty server list, the stamped server list is shown and written before the other users' notes |
| Reconcile.FallbacksAgree | client/src/pages/notes/index.js:115-149 | an empty list, a non-array answer and a thrown error all show and store the stamped sample notes |
| Reconcile.NoTokenNoChange | client/src/pages/notes/index.js:92 | without cached notes of the user, a missing token or the initial load changes nothing |
| Reconcile.RewriteKeepsOthers | client/src/pages/notes/index.js:109-112 | a rewrite keeps every other user's note in cached order, and drops every owner-less note and every old note of the user |
| Search.Matches | client/src/pages/notes/index.js:166-168 | a term that lower-cases to nothing matches every note, and so does a term that lower-cases to the note's own lower-cased text |
| Search.Search | client/src/pages/notes/index.js:160-170 | the shown list is never longer than the notes, holds only notes of the list, and is the whole list for a blank term; `Search.SearchIsMatchingSublist` pins it down |
| Search.BlankShowsAll | client/src/pages/notes/index.js:161-164 | a term that is empty after trimming shows the whole list |
| Search.SearchIsMatchingSublist | client/src/pages/notes/index.js:166-169 | otherwise the shown list keeps the order and holds every copy of each note whose lower-cased text contains the lower-cased term, and nothing else, for any case mapping |
| Search.SearchIdempotent | client/src/pages/notes/index.js:160-170 | searching the result again with the same term changes nothing |
| Search.OccurrenceMatches | client/src/pages/notes/index.js:166-168 | under a case mapping that maps each character on its own, a note whose text contains the term verbatim is always kept |
| Search.Refresh | client/src/pages/notes/index.js:29-45 | a given list replaces the notes; without one, nothing is set |
| Search.RefreshAgreesWithSearch | client/src/pages/notes/index.js:34-41 | `refreshNotes` filters a given list exactly as the search effect does |
| Card.Save | client/src/components/cards/note/index.js:107-164 | a save never refuses, writes nothing exactly when the chosen text is blank, and otherwise grows the cache by one for a new note and keeps its length for an edit |
| Card.SavedRecord | client/src/components/cards/note/index.js:118-124 | the saved record keeps the note's id and date when it has them, holds the chosen text and colour, the current owner, and nothing else |
| Card.SaveSkipsBlank | client/src/components/cards/note/index.js:107-111 | a save writes nothing exactly when the chosen text is all white space, and never refuses |
| Card.SaveNewPrepends | client/src/components/cards/note/index.js:118-129 | a new note's record goes in front of an otherwise unchanged cache |
| Card.SaveExistingReplaces | client/src/components/cards/note/index.js:118-128 | an edit keeps the cache's length and every other entry, replaces each entry with the id by the five-field record of the id, chosen text, colour, current owner and date, and leaves a cache without the id unchanged |
| Card.Delete | client/src/components/cards/note/index.js:166-216 | a delete is refused exactly when the note belongs to another user, and a written cache is no longer and holds only entries of the old cache with another id |
| Card.DeleteRefusedIffNotOwned | client/src/components/cards/note/index.js:166-171 | a delete is refused exactly when the note belongs to another user |
| Card.DeleteRemovesExactly | client/src/components/cards/note/index.js:185-188 | an owned delete keeps, in order, every copy of each entry with another id and nothing else |
| Card.DeleteIdempotent | client/src/components/cards/note/index.js:185-188 | deleting the same note again writes the same cache |
| Card.ColorChange | client/src/components/cards/note/index.js:218-236 | the picker is left alone exactly when the change is refused, otherwise it shows the new colour; a written cache keeps its length |
| Card.ColorRefusedIffOthersNote | client/src/components/cards/note/index.js:218-225 | only an existing note of another user is refused, and then the picker stays as it was |
| Card.ColorChangesOnlyColor | client/src/components/cards/note/index.js:227-236 | a colour change keeps every entry's id, text, owner, date and extra fields, and the cache's length |
| Sidebar.AddNote | client/src/components/shared/sidebar/index.js:17-58 | a note is added exactly when the initial load is over and a user id is stored, refused exactly when the id is missing; an added note goes in front of the cache and has no content |
| Sidebar.AddNotePrepends | client/src/components/shared/sidebar/index.js:20-58 | "Add Note" does nothing during the initial load, refuses without a user id, and otherwise puts one empty default-coloured note of the user in front of the cache and switches to the notes view |
| Sidebar.HasContentIffNotBlank | client/src/components/shared/sidebar/index.js:110 | a note survives the logout filter exactly when its text is not all white space |
| Sidebar.Logout | client/src/components/shared/sidebar/index.js:105-125 | logout writes exactly when it cleans something up, the written list and the cleaned count add up to the cache, and the durable `auth_key` reads as `null` afterwards |
| Sidebar.LogoutPrunes | client/src/components/shared/sidebar/index.js:105-120 | logout writes back, in order, every copy of each note with content and nothing else, writes only when some note was blank, and counts the dropped notes |
| Sidebar.LogoutIdempotent | client/src/components/shared/sidebar/index.js:108-120 | a second logout finds nothing to clean up |
| Sidebar.LogoutRemovesAuthKey | client/src/components/shared/sidebar/index.js:123 | after logout the durable `auth_key` reads as `null` and the session area is untouched |
| Sidebar.AddedNoteCleanedAtLogout | client/src/components/shared/sidebar/index.js:20-58 | a note added and never written to is removed at logout, leaving the cache as logout would have left it without the addition |
| Sidebar.StatsSummary | client/src/components/shared/sidebar/index.js:62-91 | no summary for an empty list; otherwise the count, the blank count, and a most used colour that occurs at least as often as any other and, among equals, first |
| Sidebar.EmptyCountIsCleanedCount | client/src/components/shared/sidebar/index.js:66 | the summary's empty count is the number of notes logout would clean up |
| Tally.Count | client/src/components/shared/sidebar/index.js:69-71 | the histogram has no more entries than colours, has an entry once there is a colour, and every count is positive; the lemmas below pin down its contents |
| Tally.Bump | client/src/components/shared/sidebar/index.js:70 | one more occurrence raises the colour's own count or appends it with count 1, and changes no other entry |
| Tally.CountDistinct | client/src/components/shared/sidebar/index.js:69-71 | the histogram has no colour twice |
| Tally.CountCounts | client/src/components/shared/sidebar/index.js:69-71 | each entry's count is the number of notes with that colour |
| Tally.CountCovers | client/src/components/shared/sidebar/index.js:69-71 | every colour that occurs has an entry |
| Tally.CountOrder | client/src/components/shared/sidebar/index.js:77 | the entries are listed in the order of the colours' first appearances |
| Tally.CountTotal | client/src/components/dashboard.js:49 | the counts add up to the number of colours tallied |
| Tally.MostUsed | client/src/components/shared/sidebar/index.js:73-82 | the scan keeps a largest count, the first entry that reaches it, and the empty colour when there is none |
| Tally.Winner | client/src/components/shared/sidebar/index.js:69-82 | the scan's result is the most frequent colour, and the earliest one among equally frequent colours |
| Palette.ColorNameAsWritten | client/src/components/shared/sidebar/index.js:94-103 | the lookup names a palette colour and returns any other colour itself, except that it returns an inherited object member for a name such as `toString` |
| Palette.AsWrittenReturnsInherited | client/src/components/dashboard.js:74-83 | `toString` and `constructor` do not come back as strings |
| Palette.ColorName | client/src/components/dashboard.js:74-83 | the corrected lookup gives the palette name of a palette colour and the input for anything else |
| Palette.ColorNameAgrees | client/src/components/shared/sidebar/index.js:94-103 | the corrected lookup agrees with the code as written on every input that is not an inherited member name |
| Palette.PaletteNamed | client/src/components/cards/note/index.js:18 | exactly the picker's five colours have names, the names are distinct, and the default colour is Yellow |
| Dashboard.LongestStep | client/src/components/dashboard.js:38-41 | a strictly longer note with content takes over as the first longest; otherwise the running one stays |
| Dashboard.ShortestStep | client/src/components/dashboard.js:43-46 | a strictly shorter note with content takes over as the first shortest; otherwise the running one stays |
| Dashboard.Scan | client/src/components/dashboard.js:28-50 | the pass counts the notes without text, sums the lengths, tallies the colours of the notes with content, and finds the first longest and first shortest note with content |
| Dashboard.ContentCount | client/src/components/dashboard.js:59 | every note either has no text or contributes one colour |
| Dashboard.ColorsCoverContent | client/src/components/dashboard.js:49-59 | the colour distribution's counts add up to the number of notes with content |
| Dashboard.WhiteSpaceIsContent | client/src/components/dashboard.js:30 | every non-empty note of white space only counts as having content here, with its character count as its length, while the sidebar's summary counts it as blank and logout removes it |
| Dashboard.RoundHalfUp | client/src/components/dashboard.js:60 | the rounded average is the nearest integer to the quotient, halves rounded up |
| Dashboard.RoundedAverageBetween | client/src/components/dashboard.js:60 | the rounded average of values between two bounds lies between them |
| Dashboard.SumLenBounds | client/src/components/dashboard.js:35-36 | the total length lies between the content count times the shortest and times the longest length |
| Dashboard.InsertPermutes | client/src/components/dashboard.js:55 | inserting a note adds exactly that note |
| Dashboard.SortByRecencySorts | client/src/components/dashboard.js:55 | the sort is a permutation into most-recent-first order |
| Dashboard.InsertStable | client/src/components/dashboard.js:55 | inserting into a sorted list places the note after every note of its own time, keeping the order of each time's notes |
| Dashboard.SortByRecencyStable | client/src/components/dashboard.js:55 | the sort is stable: the notes of each time come out in their input order, which decides which equally recent notes the first three keep |
| Dashboard.Recent | client/src/components/dashboard.js:53-56 | the recent list holds at most three notes and never more than the list |
| Dashboard.RecentShape | client/src/components/dashboard.js:53-56 | the recent list holds three notes with content, or every copy of each note with content when there are fewer, most recent first |
| Dashboard.RecentFromContent | client/src/components/dashboard.js:53-54 | every recent note is a shown note with content |
| Dashboard.RecentAreNewest | client/src/components/dashboard.js:53-56 | no note with content left out of the recent list is newer than any note in it |
| Dashboard.ContentExists | client/src/components/dashboard.js:59-66 | some note has content exactly when some colour was tallied |
| Dashboard.Update | client/src/components/dashboard.js:16-71 | a missing or empty list keeps the previous statistics; otherwise every field is recomputed, with no longest, shortest or average when no note has content |
| Dashboard.AverageBetweenExtremes | client/src/components/dashboard.js:59-66 | the average length lies between the lengths of the shortest and the longest note with content |
| Greeting.Salutation | client/src/components/atoms/greeting/index.js:10-15 | the morning, afternoon and evening salutations cover the hours before 12, from 12 to 17, and from 18 on |
| Greeting.SalutationMonotone | client/src/components/atoms/greeting/index.js:11-14 | a later hour never gets an earlier part of the day |
| Greeting.EveryHourGreeted | client/src/components/atoms/greeting/index.js:10-15 | every hour of the clock gets one of the three salutations, and each of them is used |
| Greeting.DisplayName | client/src/components/atoms/greeting/index.js:7 | the greeted name is always truthy: the stored name when it is truthy, "there" otherwise |
| Greeting.NameShown | client/src/components/atoms/greeting/index.js:7 | with no stored name the greeting says "there"; a non-empty name written to the session area is greeted |
| Login.WithValue | client/src/pages/login/index.js:59 | an edit sets one field and keeps the others |
| Login.PatternShortest | client/src/pages/login/index.js:76 | the unanchored e-mail pattern matches exactly when some `@` and later dot have a non-space character around them and no white space between them |
| Login.TestEmail | client/src/pages/login/index.js:76 | the one-pass test accepts exactly the texts the pattern matches |
| Login.PatternExamples | client/src/pages/login/index.js:76 | white space before the local part does not stop a match; a text without a dot after its `@` never matches |
| Login.ValidateForm | client/src/pages/login/index.js:67-88 | the submit goes on exactly when there are no errors; each field has its error exactly in the cases the validator names, with the right message |
| Login.HandleChange | client/src/pages/login/index.js:57-65 | typing sets the field, keeps the other fields and errors, and clears that field's error to the empty text |
| Login.HandleChangeClears | client/src/pages/login/index.js:61-64 | after an edit, every truthy error was already there, unchanged, for another field |
| Login.SwitchTab | client/src/pages/login/index.js:41-55 | the current tab is a no-op; another tab starts from an empty form without errors |
| Login.SwitchBackResets | client/src/pages/login/index.js:41-55 | switching away and back loses what was typed |
| Login.EmailPrefix | client/src/pages/login/index.js:132 | the prefix is the text before the first `@`, or the whole text |
| Login.ProfileName | client/src/pages/login/index.js:129-136 | the stored name is the profile's truthy `name`, or else the e-mail prefix, and always the prefix when the profile request failed |
| Login.SessionWrites | client/src/pages/login/index.js:114-135 | a successful sign-in writes `auth_key`, `user_id` and `user_name` to the session area, keeps every other session key and the whole durable area, and writes nothing without a window |
| Login.Signin | client/src/pages/login/index.js:92-159 | sign-in succeeds exactly when the form is valid and the response says 201; only then is the session area written, and the durable area never is |
| Login.MissingTokenIsTruthy | client/src/pages/login/index.js:117 | a response without a token leaves a session token that reads as the truthy text "undefined" |
| Login.UserIdStored | client/src/pages/login/index.js:118 | the stored user id reads back as the response's truthy `userId`, else its truthy `_id`, else the clock's digits, a present but falsy field counting as missing |
| Login.NameFallsBackToPrefix | client/src/pages/login/index.js:134-136 | when the profile request fails, the stored name reads back as the e-mail prefix |
| Server.NewDocument | server/src/models/notes.model.js:3-25 | a new document has the given text and owner, the given or default colour, is not deleted, and carries the schema's one `createdAt` string |
| Server.Create | server/src/controllers/notes.controller.js:3-17 | a create answers 201 exactly when nothing throws, the text is non-empty, there is an owner and the id is fresh; it adds exactly the new document, owned by the caller; any failure answers 500 and writes nothing |
| Server.GetNote | server/src/controllers/notes.controller.js:19-30 | a note is found by id whoever owns it and whether or not it is deleted; a missing one answers 404 |
| Server.OwnedLive | server/src/controllers/notes.controller.js:34 | the listing holds exactly the caller's documents that are not deleted, unchanged |
| Server.GetAll | server/src/controllers/notes.controller.js:32-39 | the listing answers 200 with the caller's live notes unless the query throws |
| Server.Guard | server/src/controllers/notes.controller.js:44-52 | a request passes exactly when the note exists and the caller owns it; otherwise 404 or 403 |
| Server.Update | server/src/controllers/notes.controller.js:41-64 | an update answers 200 exactly when the caller owns an existing note; it changes that document alone, and a refusal or failure writes nothing |
| Server.Delete | server/src/controllers/notes.controller.js:66-84 | a delete answers 200 exactly when the caller owns an existing note; it only raises that document's deleted flag |
| Server.CreateThenList | server/src/controllers/notes.controller.js:3-39 | a created note joins exactly its owner's listing |
| Server.CreateInvisibleToOthers | server/src/controllers/notes.controller.js:3-39 | a created note never shows in another user's listing |
| Server.CreatesShareCreatedAt | server/src/models/notes.model.js:21-24 | any two notes the server creates carry the same `createdAt`, whoever creates them and whatever they hold |
| Server.DeleteHidesButKeeps | server/src/controllers/notes.controller.js:19-84 | a deleted note leaves its owner's listing, but `getNote` still finds it, flagged and with its text |
| Server.DeleteIdempotent | server/src/controllers/notes.controller.js:66-84 | deleting again succeeds and changes nothing more |
| Server.UpdateAfterDelete | server/src/controllers/notes.controller.js:41-84 | the owner can still update a deleted note, which stays deleted |
| Server.UpdateKeepsLists | server/src/controllers/notes.controller.js:34-64 | an update moves no note between listings and changes a listing only at that note |
| Server.OnlySuccessWrites | server/src/controllers/notes.controller.js:3-84 | reads and failures leave the collection alone; the answers are 201 or 500 for a create and 200, 403, 404 or 500 for an update or delete |
| Cors.IndexOf | server/src/index.js:29 | `indexOf` gives the first position of the origin, or -1 exactly when the origin is not listed |
| Cors.Check | server/src/index.js:17-34 | a refused origin gets the message "Not allowed by CORS" |
| Cors.ListIsMostlySuffix | server/src/index.js:20-27 | every listed origin except the local client already ends in `.vercel.app` |
| Cors.AllowedExactly | server/src/index.js:17-34 | an origin is allowed exactly when it is missing, is the local development client, or ends in `.vercel.app` |
| Cors.OwnPortRejected | server/src/index.js:17-34 | the API's own origin `http://localhost:3001` is refused |

## Left out

- The user interface: rendering, toasts, animations, navigation, and the
  300 ms delay of `switchTab` and the card's delete (its effect is modelled
  as if the delay had passed).
- React's scheduling: each handler is a function of the state it reads, and
  no interleaving of effects, timers or requests is modelled.
- Network calls: the server's answers to `getAllNotes`, to the login and to
  the profile request are inputs (`Reconcile.Fetched`, `Login.Signin`'s
  `data` and `profile`). The card's server calls after a save, delete or
  colour change do not touch the cache and are not modelled.
- The clock: `Date.now()`, `new Date().toISOString()` and `getHours()` are
  parameters. The recency order of the dashboard uses a `stamp` function in
  place of `new Date(createdAt)`, so date parsing is not modelled.
- Json: numbers are integers; fractions and exponents are not parsed, so a
  stored `1.5` reads back as text in the model. Integers are unbounded and
  exact, while JavaScript numbers are doubles: beyond 2^53 JavaScript rounds
  them (`9007199254740993` parses as 9007199254740992) and prints large ones
  with an exponent (`1e+21`). No value the notes store comes near that, since
  ids are `Date.now()` digits. `\u` escapes of surrogate
  halves are not accepted, because a Dafny character is a Unicode scalar
  value.
- Search.OccurrenceMatches: holds only for a case mapping that maps each
  character on its own, because JavaScript's `toLowerCase` is full Unicode
  case mapping, which depends on context (a final capital sigma lowers to
  ς, so "ΑΣ" does not contain the lower-cased term "Σ") and may change a
  text's length ("İ"). The search functions take the engine's
  `toLowerCase` as the `lower` parameter, and their other lemmas hold for
  any such function; which notes JavaScript's own mapping keeps is not
  modelled.
- Json.RoundTrip: requires distinct object keys, because a JavaScript object
  cannot hold a key twice.
- Note ids and owners are strings, or the missing and `null` owner. Number
  ids are their `String()` text; a non-string `user_id` in storage is not
  modelled.
- Tally: object keys that JavaScript orders before the others (integer-like
  keys) or treats specially (`__proto__`) are not modelled; colour strings
  are assumed to be ordinary keys.
- Dashboard.RoundHalfUp: works on integers and does not model the floating
  point division before `Math.round`. The two agree for totals within
  double precision.
- Mongoose and MongoDB: the collection is a map from id to document.
  ObjectId casting and a malformed id (which throws, and so answers 500)
  are folded into the `fault` parameter. The `updatedAt` field the update
  sends is dropped, as strict mode drops it. A field left out of the update
  body leaves the stored value alone, and a `null` field is not modelled.
- Server.GetAll: returns the caller's notes as a map keyed by id, because
  the query promises no order.
- The authentication middleware that sets `req.usertoken` is not part of
  this model: the caller's id is a parameter. A missing `id` in a request
  is a key absent from the collection.
- The user and auth controllers, the database connection, the navbar, the
  brand component and the sign-up partial are outside the modelled core.

## Findings

| source | as written | input that shows it | evidently intended | confidence | as-written member | corrected member |
|---|---|---|---|---|---|---|
| client/src/components/shared/sidebar/index.js:94-103 (also client/src/components/dashboard.js:74-83) | `colorMap[hex] \|\| hex` also finds the members `colorMap` inherits from `Object.prototype` | a note colour "toString" is named by a function, not by the text "toString" | the palette name of a palette colour, the colour itself otherwise | not executed | Palette.ColorNameAsWritten, Palette.AsWrittenReturnsInherited | Palette.ColorName, Palette.ColorNameAgrees |

=== FILE: card.dfy ===
/** The note card's edits to the note cache: save, delete and colour change.
    The server calls the card makes afterwards are fire-and-forget and do not
    touch the cache, so they are not part of this model. */
module Card {
  import opened JsText
  import opened Lists
  import opened Notes
  import Json

  /** The properties a card is rendered with. `id` and `date` are the string
      forms of the props, the empty string standing for a missing one. */
  datatype Props = Props(text: string, id: string, date: string, userId: Owner)

  /** What a handler does to the cache. */
  datatype Effect = Refused | Skipped | Write(cache: seq<Note>)

  // ---------------------------------------------------------------------
  // Save

  /** The text a save stores: the edited text of an existing note, or the
      text typed into a new one. */
  function ChosenText(p: Props, editableText: string, noteText: string): string {
    if p.text != "" then editableText else noteText
  }

  /** The record a save writes: exactly five fields, so anything else the
      cached note carried is dropped. `now` is `Date.now()` and `nowIso` is
      `new Date().toISOString()`. */
  function SavedRecord(p: Props, text: string, selectedColor: string, uid: string,
                       now: nat, nowIso: string): (n: Note)
    ensures p.id != "" ==> n.id == p.id
    ensures p.date != "" ==> n.createdAt == p.date
    ensures n.text == text && n.color == selectedColor && n.extra == map[]
    ensures n.userId == CurrentOwner(uid)
  {
    Note(if p.id != "" then p.id else Json.NatText(now), text, selectedColor,
         CurrentOwner(uid), if p.date != "" then p.date else nowIso, map[])
  }

  /** `notesData.map(note => String(note.id) === String(id) ? record : note)`. */
  function Replace(cache: seq<Note>, id: string, record: Note): (r: seq<Note>)
    ensures |r| == |cache|
    ensures forall i :: 0 <= i < |cache| ==> r[i] == (if cache[i].id == id then record else cache[i])
  {
    seq(|cache|, i requires 0 <= i < |cache| => if cache[i].id == id then record else cache[i])
  }

  /** `handleSave`. */
  function Save(p: Props, editableText: string, noteText: string, selectedColor: string,
                uid: string, now: nat, nowIso: string, cache: seq<Note>): (r: Effect)
    ensures !r.Refused?
    ensures r.Skipped? <==> IsBlank(ChosenText(p, editableText, noteText))
    ensures r.Write? ==> |r.cache| == |cache| + (if p.id == "" then 1 else 0)
  {
    if p.text == "" && Trim(noteText) == [] then Skipped
    else
      var text := ChosenText(p, editableText, noteText);
      if Trim(text) == [] then Skipped
      else
        var record := SavedRecord(p, text, selectedColor, uid, now, nowIso);
        if p.id != "" then Write(Replace(cache, p.id, record)) else Write([record] + cache)
  }

  /** The two guards of a save amount to one: nothing is written exactly when
      the chosen text is white space only. A save never refuses. */
  lemma SaveSkipsBlank(p: Props, editableText: string, noteText: string, selectedColor: string,
                       uid: string, now: nat, nowIso: string, cache: seq<Note>)
    ensures Save(p, editableText, noteText, selectedColor, uid, now, nowIso, cache) == Skipped
      <==> IsBlank(ChosenText(p, editableText, noteText))
    ensures !Save(p, editableText, noteText, selectedColor, uid, now, nowIso, cache).Refused?
  {
  }

  /** Saving a new note (no `id`) puts one record in front and leaves the
      rest of the cache as it was. */
  lemma SaveNewPrepends(p: Props, editableText: string, noteText: string, selectedColor: string,
                        uid: string, now: nat, nowIso: string, cache: seq<Note>)
    requires p.id == "" && !IsBlank(ChosenText(p, editableText, noteText))
    ensures var e := Save(p, editableText, noteText, selectedColor, uid, now, nowIso, cache);
      && e.Write? && |e.cache| == |cache| + 1 && e.cache[1..] == cache
      && e.cache[0] == Note(Json.NatText(now), ChosenText(p, editableText, noteText), selectedColor,
                            CurrentOwner(uid), if p.date != "" then p.date else nowIso, map[])
  {
    var e := Save(p, editableText, noteText, selectedColor, uid, now, nowIso, cache);
    assert e.cache == [e.cache[0]] + cache;
  }

  /** Saving an existing note replaces every entry with its id by the new
      five-field record (so the entry keeps its id and loses any extra
      fields) and keeps every other entry: the length never changes and a
      cache without that id is written back unchanged. */
  lemma SaveExistingReplaces(p: Props, editableText: string, noteText: string, selectedColor: string,
                             uid: string, now: nat, nowIso: string, cache: seq<Note>)
    requires p.id != "" && !IsBlank(ChosenText(p, editableText, noteText))
    ensures var e := Save(p, editableText, noteText, selectedColor, uid, now, nowIso, cache);
      && e.Write? && |e.cache| == |cache|
      && (forall i :: 0 <= i < |cache| && cache[i].id != p.id ==> e.cache[i] == cache[i])
      && (forall i :: 0 <= i < |cache| && cache[i].id == p.id ==>
            e.cache[i] == SavedRecord(p, ChosenText(p, editableText, noteText), selectedColor,
                                      uid, now, nowIso))
      && ((forall i :: 0 <= i < |cache| ==> cache[i].id != p.id) ==> e.cache == cache)
  {
  }

  // ---------------------------------------------------------------------
  // Delete

  /** `handleDelete`, after its animation delay. */
  function Delete(p: Props, uid: string, cache: seq<Note>): (r: Effect)
    ensures r.Refused? <==> !IsOwnedByUser(p.userId, uid)
    ensures r.Write? ==> |r.cache| <= |cache|
    ensures r.Write? ==> forall i :: 0 <= i < |r.cache| ==> r.cache[i].id != p.id && r.cache[i] in cache
  {
    if !IsOwnedByUser(p.userId, uid) then Refused
    else if p.id == "" then Skipped
    else Write(Filter(cache, (n: Note) => n.id != p.id))
  }

  /** A note of another user is refused, and only such a note. */
  lemma DeleteRefusedIffNotOwned(p: Props, uid: string, cache: seq<Note>)
    ensures Delete(p, uid, cache) == Refused <==> !IsOwnedByUser(p.userId, uid)
    ensures p.id == "" && IsOwnedByUser(p.userId, uid) ==> Delete(p, uid, cache) == Skipped
  {
  }

  /** An owned delete keeps, in order, exactly the entries with another id,
      each as many times as the cache held it. */
  lemma DeleteRemovesExactly(p: Props, uid: string, cache: seq<Note>)
    requires IsOwnedByUser(p.userId, uid) && p.id != ""
    ensures var e := Delete(p, uid, cache);
      && e.Write? && Sublist(e.cache, cache)
      && (forall n :: n in e.cache <==> n in cache && n.id != p.id)
      && (forall n :: multiset(e.cache)[n] == if n.id != p.id then multiset(cache)[n] else 0)
  {
    FilterCount(cache, (n: Note) => n.id != p.id);
    FilterSublist(cache, (n: Note) => n.id != p.id);
    var r := Filter(cache, (n: Note) => n.id != p.id);
    forall n | n in cache && n.id != p.id
      ensures n in r
    {
      var i :| 0 <= i < |cache| && cache[i] == n;
    }
  }

  /** Deleting the same note again writes the same cache. */
  lemma DeleteIdempotent(p: Props, uid: string, cache: seq<Note>)
    requires Delete(p, uid, cache).Write?
    ensures Delete(p, uid, Delete(p, uid, cache).cache) == Delete(p, uid, cache)
  {
    FilterIdempotent(cache, (n: Note) => n.id != p.id);
  }

  // ---------------------------------------------------------------------
  // Colour change

  /** `{...note, color}` for every entry with the id. */
  function Recolor(cache: seq<Note>, id: string, color: string): (r: seq<Note>)
    ensures |r| == |cache|
    ensures forall i :: 0 <= i < |cache| ==>
      r[i] == (if cache[i].id == id then cache[i].(color := color) else cache[i])
  {
    seq(|cache|, i requires 0 <= i < |cache| =>
      if cache[i].id == id then cache[i].(color := color) else cache[i])
  }

  /** The colour shown by the card (`None`: left as it was) and the cache
      effect. */
  datatype ColorResult = ColorResult(selected: Option<string>, effect: Effect)

  /** `handleColorChange`. A note being created (no text or no id) only
      changes the picker. */
  function ColorChange(p: Props, uid: string, color: string, cache: seq<Note>): (r: ColorResult)
    ensures r.selected.None? <==> r.effect.Refused?
    ensures r.selected.Some? ==> r.selected.value == color
    ensures r.effect.Write? ==> |r.effect.cache| == |cache| && p.id != ""
  {
    var existing := p.text != "" && p.id != "";
    if existing && !IsOwnedByUser(p.userId, uid) then ColorResult(None, Refused)
    else if existing then ColorResult(Some(color), Write(Recolor(cache, p.id, color)))
    else ColorResult(Some(color), Skipped)
  }

  /** Only an existing note of another user is refused; the picker and the
      cache then stay as they were. */
  lemma ColorRefusedIffOthersNote(p: Props, uid: string, color: string, cache: seq<Note>)
    ensures ColorChange(p, uid, color, cache).effect == Refused
      <==> p.text != "" && p.id != "" && !IsOwnedByUser(p.userId, uid)
    ensures ColorChange(p, uid, color, cache).effect == Refused
      ==> ColorChange(p, uid, color, cache).selected == None
  {
  }

  /** A colour change alters nothing but the colour of the entries with the
      note's id: every entry keeps its id, text, owner, date and extra
      fields, and every other entry is untouched. */
  lemma ColorChangesOnlyColor(p: Props, uid: string, color: string, cache: seq<Note>)
    requires p.text != "" && p.id != "" && IsOwnedByUser(p.userId, uid)
    ensures var e := ColorChange(p, uid, color, cache).effect;
      && e.Write? && |e.cache| == |cache|
      && (forall i :: 0 <= i < |cache| ==> e.cache[i].(color := cache[i].color) == cache[i])
      && (forall i :: 0 <= i < |cache| ==>
            e.cache[i].color == (if cache[i].id == p.id then color else cache[i].color))
  {
  }
}

=== FILE: cors.dfy ===
/** The server's CORS origin check. */
module Cors {
  import opened JsText

  const Suffix := ".vercel.app"

  /** The explicit allow-list; the hosted entries are written as their
      prefix followed by `.vercel.app`. */
  const AllowList: seq<string> := [
    "http://localhost:3000",
    "https://notemate-rho" + Suffix,
    "https://notemate" + Suffix,
    "https://note-mate-delta" + Suffix,
    "https://note-mate-piyush-kumar-agarwal1s-projects" + Suffix,
    "https://note-mate-git-main-piyush-kumar-agarwal1s-projects" + Suffix]

  /** `allowedOrigins.indexOf(origin)`: the first position of `x`, or -1. */
  function IndexOf(list: seq<string>, x: string): (i: int)
    ensures -1 <= i < |list|
    ensures i >= 0 ==> list[i] == x && forall j :: 0 <= j < i ==> list[j] != x
    ensures i < 0 <==> x !in list
  {
    if list == [] then -1
    else if list[0] == x then 0
    else
      var j := IndexOf(list[1..], x);
      if j < 0 then -1 else j + 1
  }

  /** What the `origin` callback answers. */
  datatype Decision = Allow | Reject(message: string)

  /** The `origin` callback; the empty string stands for a request without
      an `Origin` header. */
  function Check(origin: string): (d: Decision)
    ensures d.Reject? ==> d.message == "Not allowed by CORS"
  {
    if origin == "" then Allow
    else if IndexOf(AllowList, origin) != -1 || EndsWith(origin, Suffix) then Allow
    else Reject("Not allowed by CORS")
  }

  /** Every entry of the list but the first already ends in `.vercel.app`. */
  lemma ListIsMostlySuffix()
    ensures forall i :: 1 <= i < |AllowList| ==> EndsWith(AllowList[i], Suffix)
    ensures !EndsWith(AllowList[0], Suffix)
  {
    SuffixOf("https://notemate-rho");
    SuffixOf("https://notemate");
    SuffixOf("https://note-mate-delta");
    SuffixOf("https://note-mate-piyush-kumar-agarwal1s-projects");
    SuffixOf("https://note-mate-git-main-piyush-kumar-agarwal1s-projects");
  }

  lemma SuffixOf(p: string)
    ensures EndsWith(p + Suffix, Suffix)
  {
    assert (p + Suffix)[|p|..] == Suffix;
  }

  /** The list adds a single origin to the suffix rule: an origin is allowed
      exactly when it is missing, is the local development client, or ends
      in `.vercel.app`. */
  lemma AllowedExactly(origin: string)
    ensures Check(origin) == Allow <==>
      origin == "" || origin == "http://localhost:3000" || EndsWith(origin, Suffix)
  {
    ListIsMostlySuffix();
    if origin in AllowList && origin != "http://localhost:3000" {
      var i :| 0 <= i < |AllowList| && AllowList[i] == origin;
    }
  }

  /** The API's own port is not an allowed origin. */
  lemma OwnPortRejected()
    ensures Check("http://localhost:3001") == Reject("Not allowed by CORS")
  {
    AllowedExactly("http://localhost:3001");
    var s := "http://localhost:3001";
    assert s[|s| - 1] != Suffix[|Suffix| - 1];
  }
}

=== FILE: dashboard.dfy ===
/** The dashboard's statistics over the shown notes. */
module Dashboard {
  import opened JsText
  import opened Lists
  import opened Notes
  import Tally
  import Sidebar

  /** `note.text` is truthy: the note has content. White space counts. */
  predicate HasText(n: Note) {
    n.text != ""
  }

  predicate NoText(n: Note) {
    n.text == ""
  }

  /** `note.text.length`. */
  function Len(n: Note): nat {
    Utf16Length(n.text)
  }

  /** The total length of the first `i` notes' texts. */
  function SumLen(notes: seq<Note>, i: nat): nat
    requires i <= |notes|
  {
    if i == 0 then 0 else SumLen(notes, i - 1) + Len(notes[i - 1])
  }

  /** The number of notes without text among the first `i`. */
  function Blanks(notes: seq<Note>, i: nat): nat
    requires i <= |notes|
  {
    if i == 0 then 0 else Blanks(notes, i - 1) + (if NoText(notes[i - 1]) then 1 else 0)
  }

  /** The colours of the notes with content among the first `i`, in order. */
  function ContentColors(notes: seq<Note>, i: nat): seq<string>
    requires i <= |notes|
  {
    if i == 0 then []
    else ContentColors(notes, i - 1) + (if HasText(notes[i - 1]) then [notes[i - 1].color] else [])
  }

  /** Among the first `bound` notes, note `k` has content, none with content
      is longer, and every earlier one with content is shorter. */
  predicate LongestAmong(notes: seq<Note>, bound: int, k: int) {
    && 0 <= k < bound <= |notes| && HasText(notes[k])
    && (forall j :: 0 <= j < bound && HasText(notes[j]) ==> Len(notes[j]) <= Len(notes[k]))
    && (forall j :: 0 <= j < k && HasText(notes[j]) ==> Len(notes[j]) < Len(notes[k]))
  }

  /** Among the first `bound` notes, note `k` has content, none with content
      is shorter, and every earlier one with content is longer. */
  predicate ShortestAmong(notes: seq<Note>, bound: int, k: int) {
    && 0 <= k < bound <= |notes| && HasText(notes[k])
    && (forall j :: 0 <= j < bound && HasText(notes[j]) ==> Len(notes[k]) <= Len(notes[j]))
    && (forall j :: 0 <= j < k && HasText(notes[j]) ==> Len(notes[k]) < Len(notes[j]))
  }

  predicate IsFirstLongest(notes: seq<Note>, k: int) {
    LongestAmong(notes, |notes|, k)
  }

  predicate IsFirstShortest(notes: seq<Note>, k: int) {
    ShortestAmong(notes, |notes|, k)
  }

  /** The running longest note after one more note: it stays unless the new
      note has content and is strictly longer (or is the first with content). */
  lemma LongestStep(notes: seq<Note>, i: nat, k: nat, seen: bool)
    requires i < |notes|
    requires seen ==> LongestAmong(notes, i, k)
    requires !seen ==> forall j :: 0 <= j < i ==> !HasText(notes[j])
    ensures HasText(notes[i]) && (!seen || Len(notes[i]) > Len(notes[k])) ==> LongestAmong(notes, i + 1, i)
    ensures seen && !(HasText(notes[i]) && Len(notes[i]) > Len(notes[k])) ==> LongestAmong(notes, i + 1, k)
  {
  }

  /** The running shortest note after one more note. */
  lemma ShortestStep(notes: seq<Note>, i: nat, k: nat, seen: bool)
    requires i < |notes|
    requires seen ==> ShortestAmong(notes, i, k)
    requires !seen ==> forall j :: 0 <= j < i ==> !HasText(notes[j])
    ensures HasText(notes[i]) && (!seen || Len(notes[i]) < Len(notes[k])) ==> ShortestAmong(notes, i + 1, i)
    ensures seen && !(HasText(notes[i]) && Len(notes[i]) < Len(notes[k])) ==> ShortestAmong(notes, i + 1, k)
  {
  }

  /** The running values of the `notes.forEach` pass. `seen` stands for
      `shortestLength` no longer being `Infinity`. */
  datatype Running = Running(empty: nat, totalChars: nat, longest: nat, longestLength: nat,
                             shortest: nat, shortestLength: nat, seen: bool, colors: seq<string>)

  /** What the running values mean after the first `i` notes. */
  predicate Accounts(notes: seq<Note>, i: nat, a: Running) {
    && i <= |notes|
    && a.empty == Blanks(notes, i)
    && a.totalChars == SumLen(notes, i)
    && a.colors == ContentColors(notes, i)
    && (!a.seen ==> a.longestLength == 0 && forall j :: 0 <= j < i ==> !HasText(notes[j]))
    && (a.seen ==> LongestAmong(notes, i, a.longest) && a.longestLength == Len(notes[a.longest]))
    && (a.seen ==> ShortestAmong(notes, i, a.shortest) && a.shortestLength == Len(notes[a.shortest]))
  }

  /** The body of the `forEach` callback for note `i`. */
  method Visit(notes: seq<Note>, i: nat, a: Running) returns (b: Running)
    requires i < |notes| && Accounts(notes, i, a)
    ensures Accounts(notes, i + 1, b)
  {
    LongestStep(notes, i, a.longest, a.seen);
    ShortestStep(notes, i, a.shortest, a.seen);
    var n := notes[i];
    b := a;
    if n.text == "" {
      b := b.(empty := b.empty + 1);
      return;
    }
    var length := Len(n);
    b := b.(totalChars := b.totalChars + length);
    if length > b.longestLength {
      b := b.(longest := i, longestLength := length);
    }
    if !b.seen || length < b.shortestLength {
      b := b.(shortest := i, shortestLength := length);
    }
    b := b.(seen := true, colors := b.colors + [n.color]);
  }

  /** The result of the `notes.forEach` pass. */
  datatype Pass = Pass(empty: nat, totalChars: nat, longest: nat, shortest: nat, colors: Tally.Tally)

  /** The `notes.forEach` pass: the blank count, the total length, the first
      longest and first shortest note with content, and the colour histogram
      of the notes with content. */
  method Scan(notes: seq<Note>) returns (r: Pass)
    ensures r.empty == Blanks(notes, |notes|)
    ensures r.totalChars == SumLen(notes, |notes|)
    ensures r.colors == Tally.Count(ContentColors(notes, |notes|))
    ensures (exists j :: 0 <= j < |notes| && HasText(notes[j])) ==>
      IsFirstLongest(notes, r.longest) && IsFirstShortest(notes, r.shortest)
  {
    var a := Running(0, 0, 0, 0, 0, 0, false, []);
    var i := 0;
    while i < |notes|
      invariant Accounts(notes, i, a)
    {
      a := Visit(notes, i, a);
      i := i + 1;
    }
    r := Pass(a.empty, a.totalChars, a.longest, a.shortest, Tally.Count(a.colors));
  }

  // ---------------------------------------------------------------------
  // Counts

  /** Every note is either blank or has content, and each content note
      contributes one colour. */
  lemma {:induction false} ContentCount(notes: seq<Note>, i: nat)
    requires i <= |notes|
    ensures |ContentColors(notes, i)| + Blanks(notes, i) == i
  {
    if i > 0 {
      ContentCount(notes, i - 1);
    }
  }

  /** The colour distribution covers the notes with content only: its counts
      add up to the number of notes minus the blank ones. */
  lemma ColorsCoverContent(notes: seq<Note>)
    ensures Tally.Total(Tally.Count(ContentColors(notes, |notes|))) == |notes| - Blanks(notes, |notes|)
  {
    Tally.CountTotal(ContentColors(notes, |notes|));
    ContentCount(notes, |notes|);
  }

  /** A non-empty note of white space only has content here, and its length
      is its number of characters, although the sidebar's summary counts it
      as empty and logout removes it. */
  lemma WhiteSpaceIsContent(n: Note)
    requires n.text != "" && IsBlank(n.text)
    ensures HasText(n) && Len(n) == |n.text|
    ensures Blanks([n], 1) == 0
    ensures Sidebar.Blank(n) && !Sidebar.HasContent(n)
  {
    Utf16LengthBmp(n.text);
  }

  // ---------------------------------------------------------------------
  // Average

  /** `Math.round(total / count)`: the nearest integer, halves rounded up. */
  function RoundHalfUp(total: nat, count: nat): (r: nat)
    requires count > 0
    ensures 2 * count * r <= 2 * total + count < 2 * count * (r + 1)
  {
    (2 * total + count) / (2 * count)
  }

  lemma MulSucc(a: nat, c: nat)
    ensures a * (c + 1) == a * c + a
  {
  }

  lemma MulMono(a: int, b: int, c: nat)
    requires a <= b
    ensures c * a <= c * b
  {
  }

  /** A rounded average lies between the smallest and the largest value. */
  lemma RoundedAverageBetween(total: nat, count: nat, lo: nat, hi: nat)
    requires count > 0 && lo * count <= total <= hi * count
    ensures lo <= RoundHalfUp(total, count) <= hi
  {
    AverageAtMost(total, count, hi);
    AverageAtLeast(total, count, lo);
  }

  lemma AverageAtMost(total: nat, count: nat, hi: nat)
    requires count > 0 && total <= hi * count
    ensures RoundHalfUp(total, count) <= hi
  {
    var r := RoundHalfUp(total, count);
    var c2 := 2 * count;
    Twice(count, hi);
    MulSucc(c2, hi);
    assert c2 * r <= 2 * total + count;
    assert c2 * r < c2 * (hi + 1);
    BelowMul(r, hi, c2);
  }

  lemma AverageAtLeast(total: nat, count: nat, lo: nat)
    requires count > 0 && lo * count <= total
    ensures lo <= RoundHalfUp(total, count)
  {
    var r := RoundHalfUp(total, count);
    var c2 := 2 * count;
    Twice(count, lo);
    MulSucc(c2, r);
    assert 2 * total + count < c2 * (r + 1);
    assert c2 * lo < c2 * (r + 1);
    BelowMul(lo, r, c2);
  }

  lemma Twice(count: nat, x: nat)
    ensures (2 * count) * x == 2 * (x * count)
  {
  }

  /** Dividing out a positive factor. */
  lemma BelowMul(x: nat, y: nat, c: nat)
    requires c > 0 && c * x < c * (y + 1)
    ensures x <= y
  {
    if x > y {
      MulMono(y + 1, x, c);
    }
  }

  /** The total length lies between the content count times the shortest and
      times the longest content length. */
  lemma {:induction false} SumLenBounds(notes: seq<Note>, i: nat, lo: nat, hi: nat)
    requires i <= |notes|
    requires forall j :: 0 <= j < i && HasText(notes[j]) ==> lo <= Len(notes[j]) <= hi
    ensures lo * |ContentColors(notes, i)| <= SumLen(notes, i) <= hi * |ContentColors(notes, i)|
  {
    if i > 0 {
      SumLenBounds(notes, i - 1, lo, hi);
      var c := |ContentColors(notes, i - 1)|;
      var total := SumLen(notes, i - 1);
      assert SumLen(notes, i) == total + Len(notes[i - 1]);
      if HasText(notes[i - 1]) {
        assert |ContentColors(notes, i)| == c + 1;
        MulSucc(lo, c);
        MulSucc(hi, c);
      } else {
        assert |ContentColors(notes, i)| == c;
        assert Len(notes[i - 1]) == 0;
      }
    }
  }

  // ---------------------------------------------------------------------
  // Recent notes

  /** Most recent first by `stamp`, the time `new Date(createdAt)` denotes. */
  predicate ByRecency(s: seq<Note>, stamp: Note -> int) {
    forall i, j :: 0 <= i < j < |s| ==> stamp(s[i]) >= stamp(s[j])
  }

  /** Place `x` after every note at least as recent: the step of a stable
      sort by descending time. */
  function Insert(x: Note, s: seq<Note>, stamp: Note -> int): (r: seq<Note>)
    ensures |r| == |s| + 1
    decreases |s|
  {
    if s == [] then [x]
    else if stamp(s[0]) >= stamp(x) then [s[0]] + Insert(x, s[1..], stamp)
    else [x] + s
  }

  lemma {:induction false} InsertPermutes(x: Note, s: seq<Note>, stamp: Note -> int)
    ensures multiset(Insert(x, s, stamp)) == multiset(s) + multiset{x}
    decreases |s|
  {
    if s != [] {
      assert s == [s[0]] + s[1..];
      if stamp(s[0]) >= stamp(x) {
        InsertPermutes(x, s[1..], stamp);
      }
    }
  }

  lemma {:induction false} InsertSorted(x: Note, s: seq<Note>, stamp: Note -> int)
    requires ByRecency(s, stamp)
    ensures ByRecency(Insert(x, s, stamp), stamp)
    decreases |s|
  {
    if s != [] && stamp(s[0]) >= stamp(x) {
      InsertSorted(x, s[1..], stamp);
      InsertPermutes(x, s[1..], stamp);
      var t := Insert(x, s[1..], stamp);
      forall k | 0 <= k < |t|
        ensures stamp(s[0]) >= stamp(t[k])
      {
        assert t[k] in multiset(s[1..]) + multiset{x};
        if t[k] != x {
          var q :| 0 <= q < |s[1..]| && s[1..][q] == t[k];
          assert s[q + 1] == t[k];
        }
      }
      ConsSorted(s[0], t, stamp);
    }
  }

  lemma ConsSorted(h: Note, t: seq<Note>, stamp: Note -> int)
    requires ByRecency(t, stamp)
    requires forall k :: 0 <= k < |t| ==> stamp(h) >= stamp(t[k])
    ensures ByRecency([h] + t, stamp)
  {
  }

  /** The notes of `s` whose time is `t`, in their order in `s`. */
  function SameTime(s: seq<Note>, stamp: Note -> int, t: int): (r: seq<Note>)
    ensures forall i :: 0 <= i < |r| ==> stamp(r[i]) == t
  {
    Filter(s, (n: Note) => stamp(n) == t)
  }

  /** Inserting into a sorted list puts `x` after every note of its own time:
      the notes of each time keep their order, `x` last among its equals. */
  lemma {:induction false} InsertStable(x: Note, s: seq<Note>, stamp: Note -> int, t: int)
    requires ByRecency(s, stamp)
    ensures SameTime(Insert(x, s, stamp), stamp, t) == SameTime(s, stamp, t) + SameTime([x], stamp, t)
    decreases |s|
  {
    var p := (n: Note) => stamp(n) == t;
    if s == [] {
    } else if stamp(s[0]) >= stamp(x) {
      InsertStable(x, s[1..], stamp, t);
      FilterAppend([s[0]], Insert(x, s[1..], stamp), p);
      FilterAppend([s[0]], s[1..], p);
      assert s == [s[0]] + s[1..];
    } else {
      FilterAppend([x], s, p);
      if stamp(x) == t {
        NewestBeyond(s, stamp, t);
      }
    }
  }

  /** In a sorted list whose first note is older than `t`, no note has time `t`. */
  lemma NewestBeyond(s: seq<Note>, stamp: Note -> int, t: int)
    requires ByRecency(s, stamp) && s != [] && stamp(s[0]) < t
    ensures SameTime(s, stamp, t) == []
  {
    forall k | 0 <= k < |s|
      ensures stamp(s[k]) < t
    {
      if k > 0 {
        assert stamp(s[0]) >= stamp(s[k]);
      }
    }
    AllOlder(s, stamp, t);
  }

  /** No note of a list of notes all older than `t` has time `t`. */
  lemma {:induction false} AllOlder(s: seq<Note>, stamp: Note -> int, t: int)
    requires forall k :: 0 <= k < |s| ==> stamp(s[k]) < t
    ensures SameTime(s, stamp, t) == []
  {
    if s != [] {
      AllOlder(s[1..], stamp, t);
    }
  }

  /** The sort is stable, as `Array.prototype.sort` is: the notes of each
      time come out in their input order, which decides which of several
      equally recent notes the first three keep. */
  lemma {:induction false} SortByRecencyStable(s: seq<Note>, stamp: Note -> int, t: int)
    ensures SameTime(SortByRecency(s, stamp), stamp, t) == SameTime(s, stamp, t)
  {
    if s != [] {
      var n := |s| - 1;
      SortByRecencyStable(s[..n], stamp, t);
      SortByRecencySorts(s[..n], stamp);
      InsertStable(s[n], SortByRecency(s[..n], stamp), stamp, t);
      assert s == s[..n] + [s[n]];
      FilterAppend(s[..n], [s[n]], (m: Note) => stamp(m) == t);
    }
  }

  /** `.sort((a, b) => new Date(b.createdAt) - new Date(a.createdAt))`. */
  function SortByRecency(s: seq<Note>, stamp: Note -> int): (r: seq<Note>)
    ensures |r| == |s|
  {
    if s == [] then [] else Insert(s[|s| - 1], SortByRecency(s[..|s| - 1], stamp), stamp)
  }

  /** The sort is a permutation into most-recent-first order. */
  lemma {:induction false} SortByRecencySorts(s: seq<Note>, stamp: Note -> int)
    ensures multiset(SortByRecency(s, stamp)) == multiset(s)
    ensures ByRecency(SortByRecency(s, stamp), stamp)
  {
    if s != [] {
      var n := |s| - 1;
      SortByRecencySorts(s[..n], stamp);
      InsertPermutes(s[n], SortByRecency(s[..n], stamp), stamp);
      InsertSorted(s[n], SortByRecency(s[..n], stamp), stamp);
      assert s == s[..n] + [s[n]];
    }
  }

  /** The notes with content, sorted by recency, cut to the first three. */
  function Recent(notes: seq<Note>, stamp: Note -> int): (r: seq<Note>)
    ensures |r| <= 3 && |r| <= |notes|
  {
    var sorted := SortByRecency(Filter(notes, HasText), stamp);
    if |sorted| <= 3 then sorted else sorted[..3]
  }

  /** `recentNotes` holds the three most recent notes with content, or all
      of them, with their multiplicities, when there are fewer, most recent
      first; it never holds a copy more than the notes do. */
  lemma RecentShape(notes: seq<Note>, stamp: Note -> int)
    ensures var r := Recent(notes, stamp);
      && |r| == (if |Filter(notes, HasText)| <= 3 then |Filter(notes, HasText)| else 3)
      && ByRecency(r, stamp)
      && multiset(r) <= multiset(Filter(notes, HasText))
      && (|Filter(notes, HasText)| <= 3 ==> multiset(r) == multiset(Filter(notes, HasText)))
  {
    var sorted := SortByRecency(Filter(notes, HasText), stamp);
    SortByRecencySorts(Filter(notes, HasText), stamp);
    if |sorted| > 3 {
      assert sorted == sorted[..3] + sorted[3..];
    }
  }

  /** Every note of `recentNotes` is a shown note with content. */
  lemma RecentFromContent(notes: seq<Note>, stamp: Note -> int)
    ensures var r := Recent(notes, stamp);
      forall m :: 0 <= m < |r| ==> HasText(r[m]) && r[m] in notes
  {
    var c := Filter(notes, HasText);
    var sorted := SortByRecency(c, stamp);
    SortByRecencySorts(c, stamp);
    var r := Recent(notes, stamp);
    forall m | 0 <= m < |r|
      ensures HasText(r[m]) && r[m] in notes
    {
      assert r[m] == sorted[m];
      assert sorted[m] in multiset(c);
    }
  }

  /** No note with content that `recentNotes` leaves out is more recent than
      any note it keeps. */
  lemma RecentAreNewest(notes: seq<Note>, stamp: Note -> int)
    ensures var r := Recent(notes, stamp);
      forall j :: 0 <= j < |notes| && HasText(notes[j]) && notes[j] !in r ==>
        forall m :: 0 <= m < |r| ==> stamp(notes[j]) <= stamp(r[m])
  {
    var c := Filter(notes, HasText);
    var sorted := SortByRecency(c, stamp);
    SortByRecencySorts(c, stamp);
    var r := Recent(notes, stamp);
    assert forall i :: 0 <= i < |r| ==> r[i] == sorted[i];
    forall j | 0 <= j < |notes| && HasText(notes[j]) && notes[j] !in r
      ensures forall m :: 0 <= m < |r| ==> stamp(notes[j]) <= stamp(r[m])
    {
      assert notes[j] in c;
      assert notes[j] in multiset(sorted);
      var k :| 0 <= k < |sorted| && sorted[k] == notes[j];
      assert k >= |r|;
      forall m | 0 <= m < |r|
        ensures stamp(notes[j]) <= stamp(r[m])
      {
        assert r[m] == sorted[m];
      }
    }
  }

  // ---------------------------------------------------------------------
  // The effect

  /** The dashboard's `stats` state. A missing longest or shortest note is
      `None`, standing both for the initial '' and for `null`. */
  datatype Stats = Stats(totalNotes: nat, avgLength: nat, longestNote: Option<Note>,
                         shortestNote: Option<Note>, colorDistribution: Tally.Tally,
                         emptyNotes: nat, recentNotes: seq<Note>)

  const InitialStats := Stats(0, 0, None, None, [], 0, [])

  /** Some note has content exactly when some colour was collected. */
  lemma {:induction false} ContentExists(notes: seq<Note>, i: nat)
    requires i <= |notes|
    ensures |ContentColors(notes, i)| > 0 <==> exists j :: 0 <= j < i && HasText(notes[j])
  {
    if i > 0 {
      ContentExists(notes, i - 1);
    }
  }

  /** The statistics effect: a missing or empty list leaves the previous
      statistics; otherwise they are recomputed from the list. */
  method Update(prev: Stats, notes: Option<seq<Note>>, stamp: Note -> int) returns (s: Stats)
    ensures notes.None? || notes.value == [] ==> s == prev
    ensures notes.Some? && notes.value != [] ==>
      var ns := notes.value;
      && s.totalNotes == |ns| && s.emptyNotes == Blanks(ns, |ns|)
      && s.colorDistribution == Tally.Count(ContentColors(ns, |ns|))
      && s.recentNotes == Recent(ns, stamp)
      && (s.emptyNotes == |ns| ==> s.longestNote == None && s.shortestNote == None && s.avgLength == 0)
      && (s.emptyNotes < |ns| ==>
            && (exists k :: IsFirstLongest(ns, k) && s.longestNote == Some(ns[k]))
            && (exists k :: IsFirstShortest(ns, k) && s.shortestNote == Some(ns[k]))
            && s.avgLength == RoundHalfUp(SumLen(ns, |ns|), |ns| - s.emptyNotes))
  {
    if notes.None? || notes.value == [] {
      return prev;
    }
    var ns := notes.value;
    var pass := Scan(ns);
    ContentCount(ns, |ns|);
    ContentExists(ns, |ns|);
    var recent := Recent(ns, stamp);
    if pass.empty == |ns| {
      s := Stats(|ns|, 0, None, None, pass.colors, pass.empty, recent);
    } else {
      var avg := RoundHalfUp(pass.totalChars, |ns| - pass.empty);
      s := Stats(|ns|, avg, Some(ns[pass.longest]), Some(ns[pass.shortest]), pass.colors, pass.empty, recent);
    }
  }

  /** The average length lies between the lengths of the shortest and the
      longest note with content. */
  lemma AverageBetweenExtremes(notes: seq<Note>, longest: nat, shortest: nat)
    requires IsFirstLongest(notes, longest) && IsFirstShortest(notes, shortest)
    ensures |notes| - Blanks(notes, |notes|) > 0
    ensures Len(notes[shortest]) <= RoundHalfUp(SumLen(notes, |notes|), |notes| - Blanks(notes, |notes|))
            <= Len(notes[longest])
  {
    ContentCount(notes, |notes|);
    ContentExists(notes, |notes|);
    var lo, hi := Len(notes[shortest]), Len(notes[longest]);
    SumLenBounds(notes, |notes|, lo, hi);
    RoundedAverageBetween(SumLen(notes, |notes|), |ContentColors(notes, |notes|)|, lo, hi);
  }
}

=== FILE: greeting.dfy ===
/** The dashboard greeting: a salutation chosen by the hour of the day and
    the signed-in user's name. */
module Greeting {
  import opened Json
  import Storage

  const Morning := "Good morning"
  const Afternoon := "Good afternoon"
  const Evening := "Good evening"

  /** `getGreeting`, for the hour `new Date().getHours()` returns. */
  function Salutation(hour: int): (g: string)
    ensures hour < 12 <==> g == Morning
    ensures 12 <= hour < 18 <==> g == Afternoon
    ensures 18 <= hour <==> g == Evening
  {
    if hour < 12 then Morning else if hour < 18 then Afternoon else Evening
  }

  /** The salutation only moves forward through the day: a later hour never
      gets an earlier part of the day. */
  lemma SalutationMonotone(h1: int, h2: int)
    requires h1 <= h2
    ensures Salutation(h1) == Afternoon ==> Salutation(h2) != Morning
    ensures Salutation(h1) == Evening ==> Salutation(h2) == Evening
  {
  }

  /** Every hour of the clock gets exactly one of the three salutations, and
      each of them is used. */
  lemma EveryHourGreeted(hour: int)
    requires 0 <= hour < 24
    ensures Salutation(hour) in {Morning, Afternoon, Evening}
    ensures Salutation(0) == Morning && Salutation(12) == Afternoon && Salutation(23) == Evening
  {
  }

  /** `utils.getUserName() || 'there'`. */
  function DisplayName(st: Storage.Store): (v: Json)
    ensures Truthy(v)
    ensures Truthy(Storage.UserName(st)) ==> v == Storage.UserName(st)
    ensures !Truthy(Storage.UserName(st)) ==> v == JStr("there")
  {
    var name := Storage.UserName(st);
    if Truthy(name) then name else JStr("there")
  }

  /** With no name in the session area the greeting says "there", and a
      non-empty name written there is greeted by that name. */
  lemma NameShown(st: Storage.Store, name: string)
    requires st.hasWindow
    ensures "user_name" !in st.session ==> DisplayName(st) == JStr("there")
    ensures name != "" ==>
      DisplayName(Storage.Add(st, Storage.Session, "user_name", JStr(name))) == JStr(name)
  {
    Storage.AddThenGet(st, Storage.Session, "user_name", JStr(name));
  }
}

=== FILE: json.dfy ===
/** JSON values as the storage adapter sees them, the text that
    `JSON.stringify` produces for them, and a parser for the text
    `JSON.parse` accepts. Numbers are integers: the parser refuses a number
    with a fraction or an exponent. */
module Json {

  import opened JsText

  datatype Json =
    | JNull
    | JBool(b: bool)
    | JNum(n: int)
    | JStr(s: string)
    | JArr(items: seq<Json>)
    | JObj(fields: seq<(string, Json)>)

  /** Outcome of parsing a prefix of some text: the value and the text left. */
  datatype Parsed<T> = Fail | Ok(value: T, rest: string)

  /** JavaScript truthiness of a parsed value: `null`, `false`, `0` and `""`
      are falsy; arrays and objects are truthy. */
  predicate Truthy(v: Json) {
    match v
    case JNull => false
    case JBool(b) => b
    case JNum(n) => n != 0
    case JStr(s) => s != ""
    case JArr(_) => true
    case JObj(_) => true
  }

  /** The keys of an object's fields, in order. */
  function Keys(fields: seq<(string, Json)>): (ks: seq<string>)
    ensures |ks| == |fields|
    ensures forall i :: 0 <= i < |fields| ==> ks[i] == fields[i].0
  {
    seq(|fields|, i requires 0 <= i < |fields| => fields[i].0)
  }

  predicate Distinct(ks: seq<string>) {
    forall i, j :: 0 <= i < j < |ks| ==> ks[i] != ks[j]
  }

  /** A value that a JavaScript object graph can hold: no object has the same
      key twice, at any depth. */
  predicate Valid(v: Json) {
    match v
    case JArr(items) => forall i :: 0 <= i < |items| ==> Valid(items[i])
    case JObj(fields) =>
      && Distinct(Keys(fields))
      && forall i :: 0 <= i < |fields| ==> ValidField(fields[i])
    case _ => true
  }

  predicate ValidField(f: (string, Json)) {
    assert f.1 < f;
    Valid(f.1)
  }

  /** `o[key]` on an object; `undefined` (here `None`) when absent or when
      `o` is not an object. */
  function Lookup(o: Json, key: string): (r: Option<Json>)
    ensures r.Some? ==> o.JObj? && exists i :: 0 <= i < |o.fields| && o.fields[i] == (key, r.value)
    ensures r.None? && o.JObj? ==> forall i :: 0 <= i < |o.fields| ==> o.fields[i].0 != key
  {
    if o.JObj? then Find(o.fields, key) else None
  }

  function Find(fields: seq<(string, Json)>, key: string): (r: Option<Json>)
    ensures r.Some? ==> exists i :: 0 <= i < |fields| && fields[i] == (key, r.value)
    ensures r.None? ==> forall i :: 0 <= i < |fields| ==> fields[i].0 != key
  {
    if fields == [] then None
    else if fields[0].0 == key then Some(fields[0].1)
    else
      var r := Find(fields[1..], key);
      assert r.Some? ==> fields[1..][0..] == fields[1..];
      r
  }

  // ---------------------------------------------------------------------
  // JSON.stringify

  function DigitChar(d: nat): char
    requires d < 10
  {
    "0123456789"[d]
  }

  function HexChar(d: nat): char
    requires d < 16
  {
    "0123456789abcdef"[d]
  }

  /** Decimal digits of a natural number, most significant first, without
      leading zeros. */
  function NatText(n: nat): (r: string)
    ensures |r| > 0
    ensures forall i :: 0 <= i < |r| ==> '0' <= r[i] <= '9'
    ensures r[0] == '0' ==> n == 0 && |r| == 1
    decreases n
  {
    if n < 10 then [DigitChar(n)] else NatText(n / 10) + [DigitChar(n % 10)]
  }

  function IntText(n: int): (r: string)
    ensures |r| > 0
  {
    if n < 0 then "-" + NatText(-n) else NatText(n)
  }

  /** How `JSON.stringify` writes one character inside a string literal. */
  function EscapeChar(c: char): string {
    if c == '"' then "\\\""
    else if c == '\\' then "\\\\"
    else if c == '\U{0008}' then "\\b"
    else if c == '\U{000C}' then "\\f"
    else if c == '\n' then "\\n"
    else if c == '\r' then "\\r"
    else if c == '\t' then "\\t"
    else if (c as int) < 0x20 then
      "\\u00" + [HexChar((c as int) / 16), HexChar((c as int) % 16)]
    else [c]
  }

  function Escape(s: string): string {
    if s == [] then "" else EscapeChar(s[0]) + Escape(s[1..])
  }

  function Quote(s: string): string {
    "\"" + Escape(s) + "\""
  }

  /** `JSON.stringify(v)`: compact form, no white space. */
  function Stringify(v: Json): (r: string)
    ensures |r| > 0
  {
    match v
    case JNull => "null"
    case JBool(b) => if b then "true" else "false"
    case JNum(n) => IntText(n)
    case JStr(s) => Quote(s)
    case JArr(items) => "[" + StringifyItems(items) + "]"
    case JObj(fields) => "{" + StringifyFields(fields) + "}"
  }

  function StringifyItems(items: seq<Json>): string {
    if items == [] then ""
    else if |items| == 1 then Stringify(items[0])
    else Stringify(items[0]) + "," + StringifyItems(items[1..])
  }

  function StringifyField(f: (string, Json)): string {
    assert f.1 < f;
    Quote(f.0) + ":" + Stringify(f.1)
  }

  function StringifyFields(fields: seq<(string, Json)>): string {
    if fields == [] then ""
    else if |fields| == 1 then StringifyField(fields[0])
    else StringifyField(fields[0]) + "," + StringifyFields(fields[1..])
  }

  // ---------------------------------------------------------------------
  // JSON.parse

  /** White space allowed between JSON tokens. */
  predicate IsJsonSpace(c: char) {
    c == ' ' || c == '\t' || c == '\n' || c == '\r'
  }

  function SkipSpace(s: string): (r: string)
    ensures |r| <= |s| && r == s[|s| - |r|..]
    ensures r == [] || !IsJsonSpace(r[0])
  {
    if s != [] && IsJsonSpace(s[0]) then SkipSpace(s[1..]) else s
  }

  predicate IsDigit(c: char) {
    '0' <= c <= '9'
  }

  /** Number of leading decimal digits of `s`. */
  function DigitRun(s: string): (k: nat)
    ensures k <= |s|
    ensures forall i :: 0 <= i < k ==> IsDigit(s[i])
    ensures k == |s| || !IsDigit(s[k])
  {
    if s != [] && IsDigit(s[0]) then 1 + DigitRun(s[1..]) else 0
  }

  /** Value of a string of decimal digits. */
  function DigitsValue(ds: string): nat
    requires forall i :: 0 <= i < |ds| ==> IsDigit(ds[i])
  {
    if ds == [] then 0
    else DigitsValue(ds[..|ds| - 1]) * 10 + DigitValue(ds[|ds| - 1])
  }

  function DigitValue(c: char): nat
    requires IsDigit(c)
  {
    assert '0' as int <= c as int;
    c as int - '0' as int
  }

  /** Digits of an integer token: `0`, or digits not starting with `0`.
      A fraction or exponent after them makes the parse fail. */
  function ParseUnsigned(u: string): (r: Parsed<nat>)
    ensures r.Ok? ==> |r.rest| < |u|
  {
    var k := DigitRun(u);
    if k == 0 then Fail
    else if u[0] == '0' && k > 1 then Fail
    else if k < |u| && (u[k] == '.' || u[k] == 'e' || u[k] == 'E') then Fail
    else Ok(DigitsValue(u[..k]), u[k..])
  }

  /** An integer token with an optional minus sign. */
  function ParseNumber(s: string): (r: Parsed<Json>)
    ensures r.Ok? ==> |r.rest| < |s|
  {
    if s != [] && s[0] == '-' then
      match ParseUnsigned(s[1..])
      case Fail => Fail
      case Ok(m, rest) => Ok(JNum(-(m as int)), rest)
    else
      match ParseUnsigned(s)
      case Fail => Fail
      case Ok(m, rest) => Ok(JNum(m), rest)
  }

  function HexValue(c: char): (r: int)
    ensures -1 <= r < 16
  {
    if '0' <= c <= '9' then c as int - '0' as int
    else if 'a' <= c <= 'f' then c as int - 'a' as int + 10
    else if 'A' <= c <= 'F' then c as int - 'A' as int + 10
    else -1
  }

  /** The character a `\uXXXX` escape stands for; surrogate halves are refused. */
  function UnicodeEscape(h: string): Option<char>
    requires |h| == 4
  {
    var a, b, c, d := HexValue(h[0]), HexValue(h[1]), HexValue(h[2]), HexValue(h[3]);
    if a < 0 || b < 0 || c < 0 || d < 0 then None
    else
      var code := a * 4096 + b * 256 + c * 16 + d;
      if 0xD800 <= code < 0xE000 then None else Some(code as char)
  }

  /** The character after a backslash, for the two-character escapes. */
  function SimpleEscape(e: char): Option<char> {
    if e == '"' then Some('"')
    else if e == '\\' then Some('\\')
    else if e == '/' then Some('/')
    else if e == 'b' then Some('\U{0008}')
    else if e == 'f' then Some('\U{000C}')
    else if e == 'n' then Some('\n')
    else if e == 'r' then Some('\r')
    else if e == 't' then Some('\t')
    else None
  }

  /** The body of a string literal, after its opening quote, up to and
      including the closing quote. */
  function ParseStringBody(s: string): (r: Parsed<string>)
    ensures r.Ok? ==> |r.rest| < |s|
  {
    if s == [] then Fail
    else if s[0] == '"' then Ok("", s[1..])
    else if s[0] == '\\' then
      if |s| < 2 then Fail
      else if s[1] == 'u' then
        if |s| < 6 then Fail
        else match UnicodeEscape(s[2..6])
          case None => Fail
          case Some(c) =>
            match ParseStringBody(s[6..])
            case Fail => Fail
            case Ok(t, rest) => Ok([c] + t, rest)
      else match SimpleEscape(s[1])
        case None => Fail
        case Some(c) =>
          match ParseStringBody(s[2..])
          case Fail => Fail
          case Ok(t, rest) => Ok([c] + t, rest)
    else if (s[0] as int) < 0x20 then Fail
    else
      match ParseStringBody(s[1..])
      case Fail => Fail
      case Ok(t, rest) => Ok([s[0]] + t, rest)
  }

  /** One value, after optional leading white space. */
  function ParseValue(s: string): (r: Parsed<Json>)
    ensures r.Ok? ==> |r.rest| < |s|
    decreases |s|, 1
  {
    ParseToken(SkipSpace(s))
  }

  /** One value starting at the first character of `t`. */
  function ParseToken(t: string): (r: Parsed<Json>)
    ensures r.Ok? ==> |r.rest| < |t|
    decreases |t|, 0
  {
    if t == [] then Fail
    else match KindOf(t[0])
      case ArrayToken => ParseArray(t[1..])
      case ObjectToken => ParseObject(t[1..])
      case StringToken => ParseStringToken(t[1..])
      case NumberToken => ParseNumber(t)
      case OtherToken => ParseLiteral(t)
  }

  /** Which kind of token a character opens. */
  datatype TokenKind = ArrayToken | ObjectToken | StringToken | NumberToken | OtherToken

  function KindOf(c: char): TokenKind {
    if c == '[' then ArrayToken
    else if c == '{' then ObjectToken
    else if c == '"' then StringToken
    else if c == '-' || IsDigit(c) then NumberToken
    else OtherToken
  }

  function ParseStringToken(s: string): (r: Parsed<Json>)
    ensures r.Ok? ==> |r.rest| < |s|
  {
    match ParseStringBody(s)
    case Fail => Fail
    case Ok(str, rest) => Ok(JStr(str), rest)
  }

  /** `null`, `true` or `false`. */
  function ParseLiteral(t: string): (r: Parsed<Json>)
    ensures r.Ok? ==> |r.rest| < |t|
  {
    if |t| >= 4 && t[0] == 'n' && t[1] == 'u' && t[2] == 'l' && t[3] == 'l' then Ok(JNull, t[4..])
    else if |t| >= 4 && t[0] == 't' && t[1] == 'r' && t[2] == 'u' && t[3] == 'e' then Ok(JBool(true), t[4..])
    else if |t| >= 5 && t[0] == 'f' && t[1] == 'a' && t[2] == 'l' && t[3] == 's' && t[4] == 'e' then
      Ok(JBool(false), t[5..])
    else Fail
  }

  /** Leading white space is skipped only when there is some. */
  lemma ValueAtToken(s: string)
    requires s != [] && !IsJsonSpace(s[0])
    ensures ParseValue(s) == ParseToken(s)
  {
  }

  lemma TokenAtNumber(s: string)
    requires s != [] && (s[0] == '-' || IsDigit(s[0]))
    ensures ParseToken(s) == ParseNumber(s)
  {
    assert KindOf(s[0]) == NumberToken;
  }

  lemma TokenAtString(s: string)
    requires s != [] && s[0] == '"'
    ensures ParseToken(s) == ParseStringToken(s[1..])
  {
    assert KindOf(s[0]) == StringToken;
  }

  lemma TokenAtArray(s: string)
    requires s != [] && s[0] == '['
    ensures ParseToken(s) == ParseArray(s[1..])
  {
    assert KindOf(s[0]) == ArrayToken;
  }

  lemma TokenAtObject(s: string)
    requires s != [] && s[0] == '{'
    ensures ParseToken(s) == ParseObject(s[1..])
  {
    assert KindOf(s[0]) == ObjectToken;
  }

  lemma TokenAtLiteral(s: string)
    requires s != [] && (s[0] == 'n' || s[0] == 't' || s[0] == 'f')
    ensures ParseToken(s) == ParseLiteral(s)
  {
    assert KindOf(s[0]) == OtherToken;
  }

  /** An array body, after its `[`, up to and including the `]`. */
  function ParseArray(s: string): (r: Parsed<Json>)
    ensures r.Ok? ==> |r.rest| < |s|
    decreases |s|, 3
  {
    var u := SkipSpace(s);
    if u != [] && u[0] == ']' then Ok(JArr([]), u[1..])
    else
      match ParseElements(s)
      case Fail => Fail
      case Ok(items, rest) => Ok(JArr(items), rest)
  }

  /** `value (, value)* ]`. */
  function ParseElements(s: string): (r: Parsed<seq<Json>>)
    ensures r.Ok? ==> |r.rest| < |s|
    decreases |s|, 2
  {
    match ParseValue(s)
    case Fail => Fail
    case Ok(v, rest) => ElementsAfter(v, rest)
  }

  /** What follows an element: `]` ends the array, `,` another element. */
  function ElementsAfter(v: Json, r: string): (p: Parsed<seq<Json>>)
    ensures p.Ok? ==> |p.rest| < |r|
    decreases |r|, 4
  {
    var u := SkipSpace(r);
    if u == [] then Fail
    else if u[0] == ']' then Ok([v], u[1..])
    else if u[0] == ',' then
      match ParseElements(u[1..])
      case Fail => Fail
      case Ok(vs, rest) => Ok([v] + vs, rest)
    else Fail
  }

  /** An object body, after its `{`, up to and including the `}`. Later
      duplicates of a key overwrite the earlier value in place. */
  function ParseObject(s: string): (r: Parsed<Json>)
    ensures r.Ok? ==> |r.rest| < |s|
    decreases |s|, 3
  {
    var u := SkipSpace(s);
    if u != [] && u[0] == '}' then Ok(JObj([]), u[1..])
    else
      match ParseMembers(s)
      case Fail => Fail
      case Ok(fields, rest) => Ok(JObj(Collapse(fields)), rest)
  }

  /** `"key" : value (, "key" : value)* }`. */
  function ParseMembers(s: string): (r: Parsed<seq<(string, Json)>>)
    ensures r.Ok? ==> |r.rest| < |s|
    decreases |s|, 2
  {
    var u := SkipSpace(s);
    if u == [] || u[0] != '"' then Fail else MemberKey(u[1..])
  }

  /** A member's key, after its opening quote, then the rest of the member. */
  function MemberKey(r: string): (p: Parsed<seq<(string, Json)>>)
    ensures p.Ok? ==> |p.rest| < |r|
    decreases |r|, 5
  {
    match ParseStringBody(r)
    case Fail => Fail
    case Ok(key, r1) => MemberValue(key, r1)
  }

  /** After a member's key: a colon and the member's value. */
  function MemberValue(key: string, r: string): (p: Parsed<seq<(string, Json)>>)
    ensures p.Ok? ==> |p.rest| < |r|
    decreases |r|, 4
  {
    var u := SkipSpace(r);
    if u == [] || u[0] != ':' then Fail
    else
      match ParseValue(u[1..])
      case Fail => Fail
      case Ok(v, r2) => MembersAfter(key, v, r2)
  }

  /** What follows a member: `}` ends the object, `,` another member. */
  function MembersAfter(key: string, v: Json, r: string): (p: Parsed<seq<(string, Json)>>)
    ensures p.Ok? ==> |p.rest| < |r|
    decreases |r|, 4
  {
    var u := SkipSpace(r);
    if u == [] then Fail
    else if u[0] == '}' then Ok([(key, v)], u[1..])
    else if u[0] == ',' then
      match ParseMembers(u[1..])
      case Fail => Fail
      case Ok(fs, rest) => Ok([(key, v)] + fs, rest)
    else Fail
  }

  /** Sets `key` to `v`: in place when the key is present, appended otherwise. */
  function Put(fields: seq<(string, Json)>, key: string, v: Json): (r: seq<(string, Json)>)
    ensures key !in Keys(fields) ==> r == fields + [(key, v)]
  {
    if fields == [] then [(key, v)]
    else if fields[0].0 == key then [(key, v)] + fields[1..]
    else
      assert Keys(fields[1..]) == Keys(fields)[1..];
      [fields[0]] + Put(fields[1..], key, v)
  }

  /** The object `JSON.parse` builds from its members in textual order. */
  function Collapse(fields: seq<(string, Json)>): seq<(string, Json)> {
    if fields == [] then []
    else
      var n := |fields| - 1;
      Put(Collapse(fields[..n]), fields[n].0, fields[n].1)
  }

  /** `JSON.parse(s)`: one value, optionally surrounded by white space. */
  function Parse(s: string): (r: Option<Json>)
    ensures SkipSpace(s) == [] ==> r.None?
  {
    match ParseValue(s)
    case Fail => None
    case Ok(v, rest) => if SkipSpace(rest) == [] then Some(v) else None
  }

  // ---------------------------------------------------------------------
  // Round trip

  /** Text that may follow a value inside a larger document. */
  predicate Delimited(t: string) {
    t == [] || t[0] == ',' || t[0] == ']' || t[0] == '}'
  }

  lemma {:induction false} DigitRunOfDigits(ds: string, t: string)
    requires forall i :: 0 <= i < |ds| ==> IsDigit(ds[i])
    requires t == [] || !IsDigit(t[0])
    ensures DigitRun(ds + t) == |ds|
  {
    if ds == [] {
      assert ds + t == t;
    } else {
      assert (ds + t)[1..] == ds[1..] + t;
      DigitRunOfDigits(ds[1..], t);
    }
  }

  lemma {:induction false} NatTextValue(n: nat)
    ensures DigitsValue(NatText(n)) == n
    decreases n
  {
    if n >= 10 {
      var p := NatText(n / 10);
      var r := p + [DigitChar(n % 10)];
      assert r[..|r| - 1] == p;
      NatTextValue(n / 10);
    }
  }

  lemma UnsignedRoundTrip(m: nat, t: string)
    requires Delimited(t)
    ensures ParseUnsigned(NatText(m) + t) == Ok(m, t)
  {
    var ds := NatText(m);
    var u := ds + t;
    DigitRunOfDigits(ds, t);
    assert u[..|ds|] == ds;
    assert u[|ds|..] == t;
    assert u[0] == ds[0];
    assert |ds| < |u| ==> u[|ds|] == t[0];
    NatTextValue(m);
  }

  lemma NegativeStep(u: string, m: nat, t: string)
    requires ParseUnsigned(u) == Ok(m, t)
    ensures ParseNumber("-" + u) == Ok(JNum(-(m as int)), t)
  {
    assert ("-" + u)[1..] == u;
  }

  lemma NonNegativeStep(u: string, m: nat, t: string)
    requires u != [] && u[0] != '-'
    requires ParseUnsigned(u) == Ok(m, t)
    ensures ParseNumber(u) == Ok(JNum(m), t)
  {
  }

  lemma NumberTokenRoundTrip(n: int, t: string)
    requires Delimited(t)
    ensures ParseNumber(IntText(n) + t) == Ok(JNum(n), t)
  {
    var m: nat := if n < 0 then -n else n;
    var ds := NatText(m);
    UnsignedRoundTrip(m, t);
    if n < 0 {
      assert IntText(n) + t == "-" + (ds + t);
      NegativeStep(ds + t, m, t);
    } else {
      assert IntText(n) == ds;
      assert (ds + t)[0] == ds[0];
      NonNegativeStep(ds + t, m, t);
    }
  }

  lemma NumberRoundTrip(n: int, t: string)
    requires Delimited(t)
    ensures ParseValue(Stringify(JNum(n)) + t) == Ok(JNum(n), t)
  {
    var s := IntText(n) + t;
    NumberTokenRoundTrip(n, t);
    assert s[0] == '-' || IsDigit(s[0]) by {
      if n >= 0 { assert s[0] == NatText(n)[0]; }
    }
    TokenAtNumber(s);
    ValueAtToken(s);
  }

  /** The two-character escapes `JSON.stringify` writes. */
  lemma ShortEscape(c: char, e: char)
    requires EscapeChar(c) == ['\\', e]
    ensures SimpleEscape(e) == Some(c)
  {
  }

  /** The `\u00XX` escape `JSON.stringify` writes for other control characters. */
  lemma ControlEscape(c: char)
    requires |EscapeChar(c)| == 6
    ensures EscapeChar(c)[1] == 'u'
    ensures UnicodeEscape(EscapeChar(c)[2..6]) == Some(c)
  {
    var code := c as int;
    assert code == (code / 16) * 16 + code % 16;
  }

  lemma EscapeCharShape(c: char)
    ensures var e := EscapeChar(c);
      || (|e| == 1 && e[0] == c && c != '"' && c != '\\' && (c as int) >= 0x20)
      || (|e| == 2 && e[0] == '\\' && e[1] != 'u' && SimpleEscape(e[1]) == Some(c))
      || (|e| == 6 && e[0] == '\\' && e[1] == 'u' && UnicodeEscape(e[2..6]) == Some(c))
  {
    var e := EscapeChar(c);
    if |e| == 2 {
      ShortEscape(c, e[1]);
    } else if |e| == 6 {
      ControlEscape(c);
    }
  }

  /** One step of the string-body parser over an escaped character. */
  lemma BodyStep(c: char, tail: string, str: string, rest: string)
    requires ParseStringBody(tail) == Ok(str, rest)
    ensures ParseStringBody(EscapeChar(c) + tail) == Ok([c] + str, rest)
  {
    var e := EscapeChar(c);
    EscapeCharShape(c);
    if |e| == 1 {
      PlainStep(e, c, tail, str, rest);
    } else if |e| == 2 {
      ShortStep(e, c, tail, str, rest);
    } else {
      UnicodeStep(e, c, tail, str, rest);
    }
  }

  lemma PlainStep(e: string, c: char, tail: string, str: string, rest: string)
    requires |e| == 1 && e[0] == c && c != '"' && c != '\\' && (c as int) >= 0x20
    requires ParseStringBody(tail) == Ok(str, rest)
    ensures ParseStringBody(e + tail) == Ok([c] + str, rest)
  {
    var s := e + tail;
    assert s[0] == c && s[1..] == tail;
  }

  lemma ShortStep(e: string, c: char, tail: string, str: string, rest: string)
    requires |e| == 2 && e[0] == '\\' && e[1] != 'u' && SimpleEscape(e[1]) == Some(c)
    requires ParseStringBody(tail) == Ok(str, rest)
    ensures ParseStringBody(e + tail) == Ok([c] + str, rest)
  {
    var s := e + tail;
    assert s[0] == '\\' && s[1] == e[1] && s[2..] == tail;
  }

  lemma UnicodeStep(e: string, c: char, tail: string, str: string, rest: string)
    requires |e| == 6 && e[0] == '\\' && e[1] == 'u' && UnicodeEscape(e[2..6]) == Some(c)
    requires ParseStringBody(tail) == Ok(str, rest)
    ensures ParseStringBody(e + tail) == Ok([c] + str, rest)
  {
    var s := e + tail;
    SliceOfAppend(e, tail, 2, 6);
    assert s[0] == '\\' && s[1] == 'u' && s[6..] == tail;
  }

  lemma SliceOfAppend(e: string, tail: string, i: nat, j: nat)
    requires i <= j <= |e|
    ensures (e + tail)[i..j] == e[i..j]
  {
    assert forall k :: i <= k < j ==> (e + tail)[k] == e[k];
  }

  lemma {:induction false} EscapeRoundTrip(str: string, t: string)
    ensures ParseStringBody(Escape(str) + "\"" + t) == Ok(str, t)
  {
    if str == [] {
      assert Escape(str) + "\"" + t == "\"" + t;
    } else {
      var tail := Escape(str[1..]) + "\"" + t;
      assert Escape(str) + "\"" + t == EscapeChar(str[0]) + tail;
      EscapeRoundTrip(str[1..], t);
      BodyStep(str[0], tail, str[1..], t);
      assert [str[0]] + str[1..] == str;
    }
  }

  lemma StringRoundTrip(str: string, t: string)
    ensures ParseValue(Stringify(JStr(str)) + t) == Ok(JStr(str), t)
  {
    var s := Stringify(JStr(str)) + t;
    assert s[0] == '"';
    assert s[1..] == Escape(str) + "\"" + t;
    EscapeRoundTrip(str, t);
    TokenAtString(s);
    ValueAtToken(s);
  }

  lemma NullText(t: string)
    ensures ParseLiteral("null" + t) == Ok(JNull, t)
  {
    var s := "null" + t;
    assert s[0] == 'n' && s[1] == 'u' && s[2] == 'l' && s[3] == 'l' && s[4..] == t;
  }

  lemma TrueText(t: string)
    ensures ParseLiteral("true" + t) == Ok(JBool(true), t)
  {
    var s := "true" + t;
    assert s[0] == 't' && s[1] == 'r' && s[2] == 'u' && s[3] == 'e' && s[4..] == t;
  }

  lemma FalseText(t: string)
    ensures ParseLiteral("false" + t) == Ok(JBool(false), t)
  {
    var s := "false" + t;
    assert s[0] == 'f' && s[1] == 'a' && s[2] == 'l' && s[3] == 's' && s[4] == 'e' && s[5..] == t;
  }

  lemma LiteralRoundTrip(v: Json, t: string)
    requires v.JNull? || v.JBool?
    ensures ParseValue(Stringify(v) + t) == Ok(v, t)
  {
    var s := Stringify(v) + t;
    if v.JNull? {
      NullText(t);
    } else if v.b {
      TrueText(t);
    } else {
      FalseText(t);
    }
    TokenAtLiteral(s);
    ValueAtToken(s);
  }

  /** The characters a stringified value can start with. */
  predicate Opener(c: char) {
    c == 'n' || c == 't' || c == 'f' || c == '"' || c == '[' || c == '{' || c == '-' || IsDigit(c)
  }

  lemma FirstChar(v: Json)
    ensures Opener(Stringify(v)[0])
  {
    if v.JNum? && v.n >= 0 {
      assert IsDigit(NatText(v.n)[0]);
    }
  }

  // Parser steps, each stated over arbitrary text.

  lemma EmptyArrayStep(t: string)
    ensures ParseArray("]" + t) == Ok(JArr([]), t)
  {
    BracketThen(t);
  }

  lemma ArrayStep(body: string, items: seq<Json>, t: string)
    requires body != [] && Opener(body[0])
    requires ParseElements(body) == Ok(items, t)
    ensures ParseArray(body) == Ok(JArr(items), t)
  {
  }

  lemma ElementStep(s: string, v: Json, r: string)
    requires ParseValue(s) == Ok(v, r)
    ensures ParseElements(s) == ElementsAfter(v, r)
  {
  }

  lemma LastElementStep(v: Json, t: string)
    ensures ElementsAfter(v, "]" + t) == Ok([v], t)
  {
    BracketThen(t);
  }

  lemma NextElementStep(v: Json, more: string, vs: seq<Json>, t: string)
    requires ParseElements(more) == Ok(vs, t)
    ensures ElementsAfter(v, "," + more) == Ok([v] + vs, t)
  {
    CommaThen(more);
  }

  // What follows a punctuation character: no white space to skip, and the
  // rest after it.

  lemma CommaThen(w: string)
    ensures SkipSpace("," + w) == "," + w
    ensures ("," + w)[0] == ',' && ("," + w)[1..] == w
  {
    assert !IsJsonSpace(("," + w)[0]);
  }

  lemma BracketThen(w: string)
    ensures SkipSpace("]" + w) == "]" + w
    ensures ("]" + w)[0] == ']' && ("]" + w)[1..] == w
  {
    assert !IsJsonSpace(("]" + w)[0]);
  }

  lemma BraceThen(w: string)
    ensures SkipSpace("}" + w) == "}" + w
    ensures ("}" + w)[0] == '}' && ("}" + w)[1..] == w
  {
    assert !IsJsonSpace(("}" + w)[0]);
  }

  lemma ColonThen(w: string)
    ensures SkipSpace(":" + w) == ":" + w
    ensures (":" + w)[0] == ':' && (":" + w)[1..] == w
  {
    assert !IsJsonSpace((":" + w)[0]);
  }

  lemma EmptyObjectStep(t: string)
    ensures ParseObject("}" + t) == Ok(JObj([]), t)
  {
    BraceThen(t);
  }

  lemma ObjectStep(body: string, fields: seq<(string, Json)>, t: string)
    requires body != [] && body[0] == '"'
    requires ParseMembers(body) == Ok(fields, t)
    ensures ParseObject(body) == Ok(JObj(Collapse(fields)), t)
  {
  }

  lemma KeyStep(w: string)
    ensures ParseMembers("\"" + w) == MemberKey(w)
  {
    QuoteThen(w);
  }

  lemma QuoteThen(w: string)
    ensures SkipSpace("\"" + w) == "\"" + w
    ensures ("\"" + w)[0] == '"' && ("\"" + w)[1..] == w
  {
    assert !IsJsonSpace(("\"" + w)[0]);
  }

  lemma KeyValueStep(r: string, key: string, r1: string)
    requires ParseStringBody(r) == Ok(key, r1)
    ensures MemberKey(r) == MemberValue(key, r1)
  {
  }

  lemma ColonStep(key: string, w: string, v: Json, after: string)
    requires ParseValue(w) == Ok(v, after)
    ensures MemberValue(key, ":" + w) == MembersAfter(key, v, after)
  {
    ColonThen(w);
  }

  lemma LastMemberStep(key: string, v: Json, t: string)
    ensures MembersAfter(key, v, "}" + t) == Ok([(key, v)], t)
  {
    BraceThen(t);
  }

  lemma NextMemberStep(key: string, v: Json, more: string, fs: seq<(string, Json)>, t: string)
    requires ParseMembers(more) == Ok(fs, t)
    ensures MembersAfter(key, v, "," + more) == Ok([(key, v)] + fs, t)
  {
    CommaThen(more);
  }

  /** The last element of an array, read from the text `w` of its value. */
  lemma SingleElement(w: string, v: Json, t: string)
    requires ParseValue(w + ("]" + t)) == Ok(v, "]" + t)
    ensures ParseElements(w + ("]" + t)) == Ok([v], t)
  {
    ElementStep(w + ("]" + t), v, "]" + t);
    LastElementStep(v, t);
  }

  /** An element followed by more elements. */
  lemma ConsElement(w: string, v: Json, more: string, vs: seq<Json>, t: string)
    requires ParseValue(w + ("," + more)) == Ok(v, "," + more)
    requires ParseElements(more) == Ok(vs, t)
    ensures ParseElements(w + ("," + more)) == Ok([v] + vs, t)
  {
    ElementStep(w + ("," + more), v, "," + more);
    NextElementStep(v, more, vs, t);
  }

  /** A quoted key: after the opening quote comes the escaped key and the
      closing quote. */
  lemma KeyText(key: string, r: string)
    ensures var s := "\"" + (Escape(key) + ("\"" + r));
      s != [] && s[0] == '"' && s[1..] == Escape(key) + "\"" + r
  {
    Assoc(Escape(key), "\"", r);
  }

  /** One member read from its text, up to what follows its value. */
  lemma MemberHead(key: string, w: string, v: Json, after: string)
    requires ParseValue(w + after) == Ok(v, after)
    ensures ParseMembers("\"" + (Escape(key) + ("\"" + (":" + (w + after))))) == MembersAfter(key, v, after)
  {
    var r1 := ":" + (w + after);
    KeyText(key, r1);
    EscapeRoundTrip(key, r1);
    KeyStep(Escape(key) + ("\"" + r1));
    KeyValueStep(Escape(key) + "\"" + r1, key, r1);
    ColonStep(key, w + after, v, after);
  }

  /** The last member of an object. */
  lemma SingleMember(key: string, w: string, v: Json, t: string)
    requires ParseValue(w + ("}" + t)) == Ok(v, "}" + t)
    ensures ParseMembers("\"" + (Escape(key) + ("\"" + (":" + (w + ("}" + t))))))
      == Ok([(key, v)], t)
  {
    MemberHead(key, w, v, "}" + t);
    LastMemberStep(key, v, t);
  }

  /** A member followed by more members. */
  lemma ConsMember(key: string, w: string, v: Json, more: string, fs: seq<(string, Json)>, t: string)
    requires ParseValue(w + ("," + more)) == Ok(v, "," + more)
    requires ParseMembers(more) == Ok(fs, t)
    ensures ParseMembers("\"" + (Escape(key) + ("\"" + (":" + (w + ("," + more))))))
      == Ok([(key, v)] + fs, t)
  {
    MemberHead(key, w, v, "," + more);
    NextMemberStep(key, v, more, fs, t);
  }

  // Shapes of stringified text.

  lemma Assoc(a: string, b: string, c: string)
    ensures a + b + c == a + (b + c)
  {
  }

  lemma Assoc4(a: string, b: string, c: string, d: string)
    ensures a + b + c + d == a + (b + (c + d))
  {
    Assoc(a + b, c, d);
    Assoc(a, b, c + d);
  }

  lemma Assoc5(a: string, b: string, c: string, d: string, e: string)
    ensures a + b + c + d + e == a + (b + (c + (d + e)))
  {
    Assoc(a + b + c, d, e);
    Assoc4(a, b, c, d + e);
  }

  lemma Assoc6(a: string, b: string, c: string, d: string, e: string, f: string)
    ensures a + b + c + d + e + f == a + (b + (c + (d + (e + f))))
  {
    Assoc(a + b + c + d, e, f);
    Assoc5(a, b, c, d, e + f);
  }

  lemma Assoc7(a: string, b: string, c: string, d: string, e: string, f: string, g: string)
    ensures a + b + c + d + e + f + g == a + (b + (c + (d + (e + (f + g)))))
  {
    Assoc(a + b + c + d + e, f, g);
    Assoc6(a, b, c, d, e, f + g);
  }

  /** The text of an array or object: its opening bracket, then its body. */
  lemma OpenText(c: char, body: string, t: string)
    ensures [c] + body + t == [c] + (body + t)
    ensures ([c] + (body + t))[0] == c && ([c] + (body + t))[1..] == body + t
  {
  }

  lemma ItemsShape(items: seq<Json>, t: string)
    requires items != []
    ensures |items| == 1 ==> StringifyItems(items) + "]" + t == Stringify(items[0]) + ("]" + t)
    ensures |items| > 1 ==>
      StringifyItems(items) + "]" + t == Stringify(items[0]) + ("," + (StringifyItems(items[1..]) + "]" + t))
  {
    var a := Stringify(items[0]);
    if |items| == 1 {
      assert StringifyItems(items) == a;
      Assoc(a, "]", t);
    } else {
      var b := StringifyItems(items[1..]);
      assert StringifyItems(items) == a + "," + b;
      Assoc(a, ",", b);
      Assoc(a, "," + b, "]");
      Assoc(a, "," + b + "]", t);
      Assoc(",", b, "]");
      Assoc(",", b + "]", t);
      Assoc(b, "]", t);
    }
  }

  /** A non-empty array body starts with its first element's text. */
  lemma ItemsHead(items: seq<Json>, t: string)
    requires items != []
    ensures var body := StringifyItems(items) + "]" + t;
      body != [] && Opener(body[0])
  {
    ItemsShape(items, t);
    FirstChar(items[0]);
  }

  /** A member's text: its quoted key, a colon, its value, and what follows. */
  lemma FieldsShape(fields: seq<(string, Json)>, t: string)
    requires fields != []
    ensures var f := fields[0];
      var after := if |fields| == 1 then "}" + t else "," + (StringifyFields(fields[1..]) + "}" + t);
      StringifyFields(fields) + "}" + t == "\"" + (Escape(f.0) + ("\"" + (":" + (Stringify(f.1) + after))))
  {
    var f := fields[0];
    var q, e, v := "\"", Escape(f.0), Stringify(f.1);
    var s := StringifyFields(fields) + "}" + t;
    assert Quote(f.0) == q + e + q;
    assert StringifyField(f) == q + e + q + ":" + v;
    if |fields| == 1 {
      assert StringifyFields(fields) == StringifyField(f);
      assert s == q + e + q + ":" + v + "}" + t;
      Assoc7(q, e, q, ":", v, "}", t);
    } else {
      var b := StringifyFields(fields[1..]);
      var p := q + e + q + ":" + v + ",";
      assert StringifyFields(fields) == StringifyField(f) + "," + b;
      assert s == p + b + "}" + t;
      Assoc(p + b, "}", t);
      Assoc(p, b, "}" + t);
      Assoc(b, "}", t);
      Assoc7(q, e, q, ":", v, ",", b + "}" + t);
    }
  }

  /** A non-empty object body starts with the quote of its first key. */
  lemma FieldsHead(fields: seq<(string, Json)>, t: string)
    requires fields != []
    ensures var body := StringifyFields(fields) + "}" + t;
      body != [] && body[0] == '"'
  {
    FieldsShape(fields, t);
  }

  // The round trip, by induction on the value.

  lemma {:induction false} ValueRoundTrip(v: Json, t: string)
    requires Valid(v)
    requires Delimited(t)
    ensures ParseValue(Stringify(v) + t) == Ok(v, t)
    decreases v, 3
  {
    match v
    case JNull => LiteralRoundTrip(v, t);
    case JBool(_) => LiteralRoundTrip(v, t);
    case JNum(n) => NumberRoundTrip(n, t);
    case JStr(str) => StringRoundTrip(str, t);
    case JArr(items) => ArrayRoundTrip(items, t);
    case JObj(fields) => ObjectRoundTrip(fields, t);
  }

  lemma {:induction false} ArrayRoundTrip(items: seq<Json>, t: string)
    requires forall i :: 0 <= i < |items| ==> Valid(items[i])
    ensures ParseValue(Stringify(JArr(items)) + t) == Ok(JArr(items), t)
    decreases items, 2
  {
    var body := StringifyItems(items) + "]";
    Assoc("[", StringifyItems(items), "]");
    assert Stringify(JArr(items)) == "[" + body;
    OpenText('[', body, t);
    TokenAtArray("[" + (body + t));
    ValueAtToken("[" + (body + t));
    ArrayBodyRoundTrip(items, t);
  }

  lemma {:induction false} ArrayBodyRoundTrip(items: seq<Json>, t: string)
    requires forall i :: 0 <= i < |items| ==> Valid(items[i])
    ensures ParseArray(StringifyItems(items) + "]" + t) == Ok(JArr(items), t)
    decreases items, 1
  {
    if items == [] {
      assert StringifyItems(items) + "]" + t == "]" + t;
      EmptyArrayStep(t);
    } else {
      ElementsRoundTrip(items, t);
      ItemsHead(items, t);
      ArrayStep(StringifyItems(items) + "]" + t, items, t);
    }
  }

  lemma {:induction false} ElementsRoundTrip(items: seq<Json>, t: string)
    requires items != []
    requires forall i :: 0 <= i < |items| ==> Valid(items[i])
    ensures ParseElements(StringifyItems(items) + "]" + t) == Ok(items, t)
    decreases items, 0
  {
    var w := Stringify(items[0]);
    ItemsShape(items, t);
    if |items| == 1 {
      ValueRoundTrip(items[0], "]" + t);
      SingleElement(w, items[0], t);
      assert [items[0]] == items;
    } else {
      var more := StringifyItems(items[1..]) + "]" + t;
      ValueRoundTrip(items[0], "," + more);
      ElementsRoundTrip(items[1..], t);
      ConsElement(w, items[0], more, items[1..], t);
      ConsSplit(items);
    }
  }

  lemma {:induction false} ObjectRoundTrip(fields: seq<(string, Json)>, t: string)
    requires Distinct(Keys(fields))
    requires forall i :: 0 <= i < |fields| ==> ValidField(fields[i])
    ensures ParseValue(Stringify(JObj(fields)) + t) == Ok(JObj(fields), t)
    decreases fields, 2
  {
    var body := StringifyFields(fields) + "}";
    Assoc("{", StringifyFields(fields), "}");
    assert Stringify(JObj(fields)) == "{" + body;
    OpenText('{', body, t);
    TokenAtObject("{" + (body + t));
    ValueAtToken("{" + (body + t));
    ObjectBodyRoundTrip(fields, t);
  }

  lemma {:induction false} ObjectBodyRoundTrip(fields: seq<(string, Json)>, t: string)
    requires Distinct(Keys(fields))
    requires forall i :: 0 <= i < |fields| ==> ValidField(fields[i])
    ensures ParseObject(StringifyFields(fields) + "}" + t) == Ok(JObj(fields), t)
    decreases fields, 1
  {
    if fields == [] {
      assert StringifyFields(fields) + "}" + t == "}" + t;
      EmptyObjectStep(t);
    } else {
      MembersRoundTrip(fields, t);
      CollapseDistinct(fields);
      FieldsHead(fields, t);
      ObjectStep(StringifyFields(fields) + "}" + t, fields, t);
    }
  }

  lemma {:induction false} MembersRoundTrip(fields: seq<(string, Json)>, t: string)
    requires fields != []
    requires forall i :: 0 <= i < |fields| ==> ValidField(fields[i])
    ensures ParseMembers(StringifyFields(fields) + "}" + t) == Ok(fields, t)
    decreases fields, 0
  {
    var f := fields[0];
    assert f.1 < f;
    assert ValidField(f);
    var w := Stringify(f.1);
    FieldsShape(fields, t);
    if |fields| == 1 {
      ValueRoundTrip(f.1, "}" + t);
      SingleMember(f.0, w, f.1, t);
      assert [(f.0, f.1)] == fields;
    } else {
      var more := StringifyFields(fields[1..]) + "}" + t;
      ValueRoundTrip(f.1, "," + more);
      MembersRoundTrip(fields[1..], t);
      ConsMember(f.0, w, f.1, more, fields[1..], t);
      assert (f.0, f.1) == f;
      ConsSplit(fields);
    }
  }

  lemma ConsSplit<T>(xs: seq<T>)
    requires xs != []
    ensures [xs[0]] + xs[1..] == xs
  {
  }

  /** With distinct keys, `JSON.parse` keeps every member where it was. */
  lemma {:induction false} CollapseDistinct(fields: seq<(string, Json)>)
    requires Distinct(Keys(fields))
    ensures Collapse(fields) == fields
  {
    if fields != [] {
      var n := |fields| - 1;
      var init := fields[..n];
      assert Keys(init) == Keys(fields)[..n];
      CollapseDistinct(init);
      assert fields[n].0 !in Keys(init) by {
        forall i | 0 <= i < n ensures Keys(init)[i] != fields[n].0 {
          assert Keys(fields)[i] != Keys(fields)[n];
        }
      }
      assert init + [fields[n]] == fields;
    }
  }

  /** `JSON.parse(JSON.stringify(v))` gives back `v`. */
  lemma RoundTrip(v: Json)
    requires Valid(v)
    ensures Parse(Stringify(v)) == Some(v)
  {
    ValueRoundTrip(v, []);
    assert Stringify(v) + [] == Stringify(v);
  }
}

=== FILE: jstext.dfy ===
/** String primitives of the JavaScript runtime that the rest of the model
    relies on: truthiness of optional values, `String.prototype.trim`,
    character-wise case mappings, `includes`, `startsWith` and `endsWith`. */
module JsText {

  datatype Option<+T> = None | Some(value: T)

  /** The characters JavaScript treats as white space for `trim()` and for
      the regular-expression class `\s`: WhiteSpace and LineTerminator of
      section 12.2 and 12.3 of ECMA-262. */
  predicate IsSpace(c: char) {
    || c == '\t' || c == '\n' || c == '\U{000B}' || c == '\U{000C}' || c == '\r'
    || c == ' ' || c == '\U{00A0}' || c == '\U{1680}'
    || ('\U{2000}' <= c <= '\U{200A}')
    || c == '\U{2028}' || c == '\U{2029}' || c == '\U{202F}' || c == '\U{205F}'
    || c == '\U{3000}' || c == '\U{FEFF}'
  }

  /** Every character of `s` is white space (true of the empty string). */
  predicate IsBlank(s: string) {
    forall i :: 0 <= i < |s| ==> IsSpace(s[i])
  }

  /** Length of the run of white space at the start of `s`. */
  function LeadingSpace(s: string): (n: nat)
    ensures n <= |s|
    ensures forall i :: 0 <= i < n ==> IsSpace(s[i])
    ensures n == |s| || !IsSpace(s[n])
  {
    if s == [] || !IsSpace(s[0]) then 0 else LeadingSpace(s[1..]) + 1
  }

  /** Length of the run of white space at the end of `s`. */
  function TrailingSpace(s: string): (n: nat)
    ensures n <= |s|
    ensures forall i :: |s| - n <= i < |s| ==> IsSpace(s[i])
    ensures n == |s| || !IsSpace(s[|s| - n - 1])
  {
    if s == [] || !IsSpace(s[|s| - 1]) then 0 else TrailingSpace(s[..|s| - 1]) + 1
  }

  /** `s.trim()`: `s` without its leading and trailing white space. */
  function Trim(s: string): (r: string)
    ensures |r| <= |s|
    ensures r == [] || (!IsSpace(r[0]) && !IsSpace(r[|r| - 1]))
    ensures r == [] <==> IsBlank(s)
  {
    var i := LeadingSpace(s);
    var a := s[i..];
    var j := TrailingSpace(a);
    var r := a[..|a| - j];
    if r != [] then assert r[0] == s[i]; r else r
  }

  /** `s` with `f` applied to each character: a case mapping that works
      character by character, without looking at the neighbours. */
  function MapChars(s: string, f: char -> char): (r: string)
    ensures |r| == |s|
    ensures forall i :: 0 <= i < |s| ==> r[i] == f(s[i])
  {
    seq(|s|, i requires 0 <= i < |s| => f(s[i]))
  }

  /** `s.length`: the number of UTF-16 code units, two for a character
      outside the Basic Multilingual Plane. */
  function Utf16Length(s: string): (n: nat)
    ensures |s| <= n <= 2 * |s|
    ensures n == 0 <==> s == []
  {
    if s == [] then 0 else (if s[0] as int >= 0x10000 then 2 else 1) + Utf16Length(s[1..])
  }

  /** On text inside the Basic Multilingual Plane the length is the number of
      characters. */
  lemma {:induction false} Utf16LengthBmp(s: string)
    requires forall i :: 0 <= i < |s| ==> s[i] as int < 0x10000
    ensures Utf16Length(s) == |s|
  {
    if s != [] {
      Utf16LengthBmp(s[1..]);
    }
  }

  /** `t` occurs in `s` starting at position `i`. */
  predicate OccursAt(s: string, t: string, i: int) {
    0 <= i <= |s| - |t| && s[i..i + |t|] == t
  }

  /** `s.includes(t)`: `t` occurs in `s` at some position. */
  predicate Contains(s: string, t: string) {
    exists i :: 0 <= i <= |s| - |t| && OccursAt(s, t, i)
  }

  /** `s.startsWith(t)`. */
  predicate StartsWith(s: string, t: string) {
    |t| <= |s| && s[..|t|] == t
  }

  /** `s.endsWith(t)`. */
  predicate EndsWith(s: string, t: string) {
    |t| <= |s| && s[|s| - |t|..] == t
  }

  /** Number of positions of `s` at which `p` holds. */
  function CountWhere<T>(s: seq<T>, p: T -> bool): (n: nat)
    ensures n <= |s|
  {
    if s == [] then 0 else (if p(s[0]) then 1 else 0) + CountWhere(s[1..], p)
  }

  lemma CountWhereAppend<T>(a: seq<T>, b: seq<T>, p: T -> bool)
    ensures CountWhere(a + b, p) == CountWhere(a, p) + CountWhere(b, p)
  {
    if a == [] {
      assert a + b == b;
    } else {
      assert (a + b)[1..] == a[1..] + b;
      CountWhereAppend(a[1..], b, p);
    }
  }
}

=== FILE: lists.dfy ===
/** Sequence operations shared by the client models: `Array.prototype.filter`
    and the order-preserving sublist relation it establishes. */
module Lists {

  /** `r` is obtained from `s` by deleting some elements, keeping the order
      of the rest. */
  predicate Sublist<T(==)>(r: seq<T>, s: seq<T>)
    decreases |s|
  {
    if r == [] then true
    else if s == [] then false
    else (r[0] == s[0] && Sublist(r[1..], s[1..])) || Sublist(r, s[1..])
  }

  /** `s.filter(p)`. */
  function Filter<T>(s: seq<T>, p: T -> bool): (r: seq<T>)
    ensures |r| <= |s|
    ensures forall i :: 0 <= i < |r| ==> r[i] in s && p(r[i])
    ensures forall i :: 0 <= i < |s| && p(s[i]) ==> s[i] in r
  {
    if s == [] then []
    else
      var rest := Filter(s[1..], p);
      assert forall i :: 1 <= i < |s| ==> s[i] == s[1..][i - 1];
      if p(s[0]) then [s[0]] + rest else rest
  }

  /** A filter keeps every copy of an element the predicate accepts and no
      copy of any other: it pins multiplicities, not just membership. */
  lemma {:induction false} FilterCount<T>(s: seq<T>, p: T -> bool)
    ensures forall x :: multiset(Filter(s, p))[x] == if p(x) then multiset(s)[x] else 0
  {
    if s != [] {
      FilterCount(s[1..], p);
      assert s == [s[0]] + s[1..];
      assert multiset(s) == multiset{s[0]} + multiset(s[1..]);
    }
  }

  /** Filtering distributes over concatenation: each part keeps its order. */
  lemma {:induction false} FilterAppend<T>(a: seq<T>, b: seq<T>, p: T -> bool)
    ensures Filter(a + b, p) == Filter(a, p) + Filter(b, p)
  {
    if a == [] {
      assert a + b == b;
    } else {
      assert (a + b)[0] == a[0];
      assert (a + b)[1..] == a[1..] + b;
      FilterAppend(a[1..], b, p);
    }
  }

  /** The filtered sequence is an order-preserving sublist of the input. */
  lemma {:induction false} FilterSublist<T>(s: seq<T>, p: T -> bool)
    ensures Sublist(Filter(s, p), s)
  {
    if s != [] {
      FilterSublist(s[1..], p);
      var rest := Filter(s[1..], p);
      if p(s[0]) {
        var r := [s[0]] + rest;
        assert r[0] == s[0] && r[1..] == rest;
      } else if rest != [] {
        assert Sublist(rest, s[1..]);
      }
    }
  }

  /** Filtering depends only on the values of the predicate. */
  lemma {:induction false} FilterSamePredicate<T>(s: seq<T>, p: T -> bool, q: T -> bool)
    requires forall i :: 0 <= i < |s| ==> p(s[i]) == q(s[i])
    ensures Filter(s, p) == Filter(s, q)
  {
    if s != [] {
      FilterSamePredicate(s[1..], p, q);
    }
  }

  /** Filtering again with the same predicate changes nothing. */
  lemma {:induction false} FilterIdempotent<T>(s: seq<T>, p: T -> bool)
    ensures Filter(Filter(s, p), p) == Filter(s, p)
  {
    if s != [] {
      FilterIdempotent(s[1..], p);
      if p(s[0]) {
        var r := [s[0]] + Filter(s[1..], p);
        assert r[0] == s[0] && r[1..] == Filter(s[1..], p);
      }
    }
  }

  /** A predicate that holds of every element keeps the whole sequence. */
  lemma {:induction false} FilterAll<T>(s: seq<T>, p: T -> bool)
    requires forall i :: 0 <= i < |s| ==> p(s[i])
    ensures Filter(s, p) == s
  {
    if s != [] {
      FilterAll(s[1..], p);
      assert [s[0]] + s[1..] == s;
    }
  }

  /** Nothing is kept when no element satisfies the predicate, and the
      length shrinks as soon as one element fails it. */
  lemma {:induction false} FilterShrinks<T>(s: seq<T>, p: T -> bool)
    ensures |Filter(s, p)| == |s| <==> forall i :: 0 <= i < |s| ==> p(s[i])
  {
    if s != [] {
      FilterShrinks(s[1..], p);
      assert forall i :: 1 <= i < |s| ==> s[i] == s[1..][i - 1];
      if !p(s[0]) {
        assert |Filter(s[1..], p)| <= |s[1..]|;
      }
    }
  }
}

=== FILE: login.dfy ===
/** The login page's form logic: the field validator with its unanchored
    e-mail pattern, field edits, tab switches, and what a successful sign-in
    stores in the session area. */
module Login {
  import opened JsText
  import opened Json
  import opened Storage

  datatype Tab = SignIn | SignUp
  datatype Field = Name | Email | Password

  datatype Form = Form(name: string, email: string, password: string)

  /** `formErrors`: a message per field; the key is absent when the field has
      no error, and a message cleared by typing is the empty string. */
  type Errors = map<Field, string>

  /** The page state the handlers below change. */
  datatype Page = Page(tab: Tab, form: Form, errors: Errors)

  const EmptyForm := Form("", "", "")

  function Value(f: Form, k: Field): string {
    match k
    case Name => f.name
    case Email => f.email
    case Password => f.password
  }

  function WithValue(f: Form, k: Field, v: string): (g: Form)
    ensures Value(g, k) == v
    ensures forall j :: j != k ==> Value(g, j) == Value(f, j)
  {
    match k
    case Name => f.(name := v)
    case Email => f.(email := v)
    case Password => f.(password := v)
  }

  // ---------------------------------------------------------------------
  // The pattern /\S+@\S+\.\S+/

  /** No white space in `s[i..j]`. */
  predicate NoSpace(s: string, i: int, j: int)
    requires 0 <= i <= j <= |s|
  {
    forall k :: i <= k < j ==> !IsSpace(s[k])
  }

  /** `s[a..e]` is matched by `\S+@\S+\.\S+` with the `@` at `b` and the dot
      at `c`: every `\S+` takes at least one character and none of them is
      white space. */
  predicate MatchAt(s: string, a: int, b: int, c: int, e: int) {
    && 0 <= a < b && b + 1 < c && c + 1 < e <= |s|
    && s[b] == '@' && s[c] == '.'
    && NoSpace(s, a, b) && NoSpace(s, b + 1, c) && NoSpace(s, c + 1, e)
  }

  /** `test` of the unanchored pattern: some substring of `s` matches. */
  predicate EmailPattern(s: string) {
    exists a, b, c, e | 0 <= a < b < c < e <= |s| :: MatchAt(s, a, b, c, e)
  }

  /** The shortest match around an `@` at `b` and a dot at `c`: one
      character on each side is enough, since the pattern is unanchored. */
  predicate Shortest(s: string, b: int, c: int) {
    && 0 < b && b + 1 < c && c + 1 < |s|
    && s[b] == '@' && s[c] == '.'
    && !IsSpace(s[b - 1]) && !IsSpace(s[c + 1]) && NoSpace(s, b + 1, c)
  }

  /** A match exists exactly when a shortest one does. */
  lemma PatternShortest(s: string)
    ensures EmailPattern(s) <==> exists b, c :: Shortest(s, b, c)
  {
    if EmailPattern(s) {
      var a, b, c, e :| 0 <= a < b < c < e <= |s| && MatchAt(s, a, b, c, e);
      assert !IsSpace(s[b - 1]) && !IsSpace(s[c + 1]);
      assert Shortest(s, b, c);
    }
    if exists b, c :: Shortest(s, b, c) {
      var b, c :| Shortest(s, b, c);
      assert MatchAt(s, b - 1, b, c, c + 2);
    }
  }

  /** An `@` at `b` with a character before it, usable as the middle of a
      match. */
  predicate UsableAt(s: string, b: int) {
    0 < b < |s| && s[b] == '@' && !IsSpace(s[b - 1])
  }

  /** What the scan knows after the first `i` characters: no shortest match
      has its dot before `i`, and `at` is the earliest usable `@` whose run
      reaches `i` without white space (-1 when there is none). */
  ghost predicate Tracks(s: string, i: int, at: int)
    requires 0 <= i <= |s|
  {
    && (forall b, c :: 0 <= c < i ==> !Shortest(s, b, c))
    && (at < 0 ==> forall b :: 0 < b < i && UsableAt(s, b) ==> !NoSpace(s, b + 1, i))
    && (at >= 0 ==> at < i && UsableAt(s, at) && NoSpace(s, at + 1, i))
    && (at >= 0 ==> forall b :: 0 < b < at && UsableAt(s, b) ==> !NoSpace(s, b + 1, i))
  }

  /** The scan's memory after looking at `s[i]`. */
  function NextAt(s: string, i: int, at: int): int
    requires 0 <= i < |s|
  {
    if IsSpace(s[i]) then -1
    else if at < 0 && UsableAt(s, i) then i
    else at
  }

  /** The dot at `i` completes a match with the remembered `@`. */
  predicate Completes(s: string, i: int, at: int)
    requires 0 <= i < |s|
  {
    s[i] == '.' && at >= 0 && at + 1 < i && i + 1 < |s| && !IsSpace(s[i + 1])
  }

  lemma TracksStep(s: string, i: int, at: int)
    requires 0 <= i < |s| && Tracks(s, i, at) && !Completes(s, i, at)
    ensures Tracks(s, i + 1, NextAt(s, i, at))
  {
    forall b | 0 < b < i && s[b] == '@' && !IsSpace(s[b - 1]) && b + 1 < i
      ensures !Shortest(s, b, i)
    {
      if at < 0 || b < at {
        assert UsableAt(s, b);
        assert !NoSpace(s, b + 1, i);
      }
    }
    var next := NextAt(s, i, at);
    if next < 0 {
      forall b | 0 < b < i + 1 && UsableAt(s, b)
        ensures !NoSpace(s, b + 1, i + 1)
      {
        if b < i && !IsSpace(s[i]) {
          assert !NoSpace(s, b + 1, i);
        }
      }
    }
  }

  /** One left-to-right pass over `s`, remembering the earliest usable `@`
      of the current white-space-free run. */
  method TestEmail(s: string) returns (ok: bool)
    ensures ok <==> EmailPattern(s)
  {
    PatternShortest(s);
    var at := -1;
    var i := 0;
    while i < |s|
      invariant 0 <= i <= |s| && Tracks(s, i, at)
    {
      if Completes(s, i, at) {
        assert Shortest(s, at, i);
        return true;
      }
      TracksStep(s, i, at);
      at := NextAt(s, i, at);
      i := i + 1;
    }
    return false;
  }

  /** The pattern is unanchored: white space before the local part does not
      stop a match, while a string with no dot after its `@` never matches. */
  lemma PatternExamples()
    ensures EmailPattern("a b@c.d")
    ensures !EmailPattern("b@cd")
  {
    assert MatchAt("a b@c.d", 2, 3, 5, 7);
    var s := "b@cd";
    forall c | 0 <= c < |s|
      ensures s[c] != '.'
    {
    }
  }

  // ---------------------------------------------------------------------
  // validateForm

  const NameRequired := "Name is required"
  const EmailRequired := "Email is required"
  const EmailInvalid := "Email is invalid"
  const PasswordRequired := "Password is required"
  const PasswordShort := "Password must be at least 6 characters"

  /** `validateForm`: the errors it sets and whether it lets the submit go
      on. The password is neither trimmed nor checked for white space, and
      its length counts UTF-16 code units. */
  method ValidateForm(tab: Tab, f: Form) returns (ok: bool, errors: Errors)
    ensures ok <==> |errors| == 0
    ensures Name in errors <==> tab == SignUp && IsBlank(f.name)
    ensures Name in errors ==> errors[Name] == NameRequired
    ensures Email in errors <==> IsBlank(f.email) || !EmailPattern(f.email)
    ensures Email in errors ==> errors[Email] == (if IsBlank(f.email) then EmailRequired else EmailInvalid)
    ensures Password in errors <==> Utf16Length(f.password) < 6
    ensures Password in errors ==>
      errors[Password] == (if f.password == "" then PasswordRequired else PasswordShort)
  {
    errors := map[];
    if tab == SignUp && Trim(f.name) == [] {
      errors := errors[Name := NameRequired];
    }
    if Trim(f.email) == [] {
      errors := errors[Email := EmailRequired];
    } else {
      var matched := TestEmail(f.email);
      if !matched {
        errors := errors[Email := EmailInvalid];
      }
    }
    if f.password == "" {
      errors := errors[Password := PasswordRequired];
    } else if Utf16Length(f.password) < 6 {
      errors := errors[Password := PasswordShort];
    }
    ok := |errors| == 0;
    assert |errors| == 0 <==> errors == map[];
  }

  // ---------------------------------------------------------------------
  // handleChange and switchTab

  /** `handleChange`: the named field takes the typed value, and a truthy
      error of that field is cleared to the empty string. */
  function HandleChange(p: Page, k: Field, v: string): (q: Page)
    ensures q.tab == p.tab
    ensures Value(q.form, k) == v
    ensures forall j :: j != k ==> Value(q.form, j) == Value(p.form, j)
    ensures q.errors.Keys == p.errors.Keys
    ensures forall j :: j in p.errors && j != k ==> q.errors[j] == p.errors[j]
    ensures k in q.errors ==> q.errors[k] == ""
  {
    var errors := if k in p.errors && p.errors[k] != "" then p.errors[k := ""] else p.errors;
    Page(p.tab, WithValue(p.form, k, v), errors)
  }

  /** After any edit no field has a truthy error it did not have before, so
      a form can be resubmitted field by field. */
  lemma HandleChangeClears(p: Page, k: Field, v: string, j: Field)
    requires j in HandleChange(p, k, v).errors && HandleChange(p, k, v).errors[j] != ""
    ensures j != k && j in p.errors && p.errors[j] == HandleChange(p, k, v).errors[j]
  {
  }

  /** `switchTab`: the current tab is a no-op; another tab starts from an
      empty form without errors. */
  function SwitchTab(p: Page, tab: Tab): (q: Page)
    ensures tab == p.tab ==> q == p
    ensures tab != p.tab ==> q.tab == tab && q.form == EmptyForm && q.errors == map[]
  {
    if tab == p.tab then p else Page(tab, EmptyForm, map[])
  }

  /** Switching away and back again loses whatever was typed. */
  lemma SwitchBackResets(p: Page, tab: Tab)
    requires tab != p.tab
    ensures SwitchTab(SwitchTab(p, tab), p.tab) == Page(p.tab, EmptyForm, map[])
  {
  }

  // ---------------------------------------------------------------------
  // A successful sign-in

  /** `data?.success === 201`. */
  predicate Succeeded(data: Json) {
    Lookup(data, "success") == Some(JNum(201))
  }

  /** `email.split('@')[0]`: the text before the first `@`, or the whole
      text when there is none. */
  function EmailPrefix(email: string): (p: string)
    ensures |p| <= |email| && email[..|p|] == p
    ensures forall i :: 0 <= i < |p| ==> p[i] != '@'
    ensures |p| < |email| ==> email[|p|] == '@'
  {
    if email == [] || email[0] == '@' then [] else [email[0]] + EmailPrefix(email[1..])
  }

  /** `a || b || c` over values read from the response. */
  function Or(a: Option<Json>, b: Json): Json {
    if a.Some? && Truthy(a.value) then a.value else b
  }

  /** The user name stored after the sign-in: the profile's truthy `name`,
      or else the e-mail prefix. `profile` is `None` when the profile
      request threw. */
  function ProfileName(profile: Option<Json>, email: string): (v: Json)
    ensures v == JStr(EmailPrefix(email)) || (profile.Some? && Lookup(profile.value, "name") == Some(v) && Truthy(v))
    ensures profile.None? ==> v == JStr(EmailPrefix(email))
  {
    if profile.Some? && Truthy(profile.value) then Or(Lookup(profile.value, "name"), JStr(EmailPrefix(email)))
    else JStr(EmailPrefix(email))
  }

  /** The session writes of a successful sign-in: `auth_key` from the
      response's `token` (stored as the text "undefined" when the response
      has none), `user_id` from `userId`, `_id` or the clock `now`, and
      `user_name`. */
  function SessionWrites(st: Store, data: Json, profile: Option<Json>, email: string, now: nat): (r: Store)
    ensures r.durable == st.durable && r.hasWindow == st.hasWindow
    ensures !st.hasWindow ==> r == st
    ensures st.hasWindow ==> "auth_key" in r.session && "user_id" in r.session && "user_name" in r.session
    ensures forall k :: k in st.session && k != "auth_key" && k != "user_id" && k != "user_name" ==>
      k in r.session && r.session[k] == st.session[k]
    ensures forall k :: k in r.session && k != "auth_key" && k != "user_id" && k != "user_name" ==>
      k in st.session
  {
    var token := Lookup(data, "token");
    var st1 := if token.Some? then Add(st, Session, "auth_key", token.value) else AddUndefined(st, Session, "auth_key");
    var st2 := Add(st1, Session, "user_id", Or(Lookup(data, "userId"), Or(Lookup(data, "_id"), JStr(NatText(now)))));
    Add(st2, Session, "user_name", ProfileName(profile, email))
  }

  datatype Outcome = Outcome(ok: bool, errors: Errors, store: Store)

  /** `handleSignin` on the sign-in tab, the login response being `data`
      (`None`: the request or its JSON threw). Nothing is sent while the
      form has errors, and only a success code writes to storage. */
  method Signin(f: Form, st: Store, data: Option<Json>, profile: Option<Json>, now: nat) returns (o: Outcome)
    ensures o.ok <==> |o.errors| == 0 && data.Some? && Succeeded(data.value)
    ensures o.ok ==> o.store == SessionWrites(st, data.value, profile, f.email, now)
    ensures !o.ok ==> o.store == st
    ensures o.store.durable == st.durable
  {
    var valid, errors := ValidateForm(SignIn, f);
    if !valid || data.None? || !Succeeded(data.value) {
      return Outcome(false, errors, st);
    }
    o := Outcome(true, errors, SessionWrites(st, data.value, profile, f.email, now));
  }

  /** A response without a token leaves the text "undefined" as the
      session token, which reads back as a truthy string. */
  lemma MissingTokenIsTruthy(st: Store, data: Json, profile: Option<Json>, email: string, now: nat)
    requires st.hasWindow && Lookup(data, "token").None?
    ensures AuthToken(SessionWrites(st, data, profile, email, now)) == JStr("undefined")
  {
    var st1 := AddUndefined(st, Session, "auth_key");
    var id := Or(Lookup(data, "userId"), Or(Lookup(data, "_id"), JStr(NatText(now))));
    var st2 := Add(st1, Session, "user_id", id);
    BareWordReadsAsText(st, Session, "auth_key");
    WriteFrame(st1, Session, "user_id", id, "auth_key");
    WriteFrame(st2, Session, "user_name", ProfileName(profile, email), "auth_key");
  }

  /** `data.userId || data._id || Date.now().toString()` as `getUserId`
      reads it back: a truthy `userId`; else a truthy `_id`; else the clock's
      digits, also when either field is present but falsy. */
  lemma UserIdStored(st: Store, data: Json, profile: Option<Json>, email: string, now: nat)
    requires st.hasWindow && Valid(data)
    ensures var id := UserId(SessionWrites(st, data, profile, email, now));
      && (Lookup(data, "userId").Some? && Truthy(Lookup(data, "userId").value) ==> id == Lookup(data, "userId").value)
      && (Lookup(data, "userId").None? && Lookup(data, "_id").None? ==> id == JStr(NatText(now)))
      && ((!(Lookup(data, "userId").Some? && Truthy(Lookup(data, "userId").value))
           && Lookup(data, "_id").Some? && Truthy(Lookup(data, "_id").value))
          ==> id == Lookup(data, "_id").value)
      && ((!(Lookup(data, "userId").Some? && Truthy(Lookup(data, "userId").value))
           && !(Lookup(data, "_id").Some? && Truthy(Lookup(data, "_id").value)))
          ==> id == JStr(NatText(now)))
  {
    var token := Lookup(data, "token");
    var st1 := if token.Some? then Add(st, Session, "auth_key", token.value) else AddUndefined(st, Session, "auth_key");
    var id := Or(Lookup(data, "userId"), Or(Lookup(data, "_id"), JStr(NatText(now))));
    var st2 := Add(st1, Session, "user_id", id);
    LookupValid(data, "userId");
    LookupValid(data, "_id");
    assert Valid(id);
    AddThenGet(st1, Session, "user_id", id);
    WriteFrame(st2, Session, "user_name", ProfileName(profile, email), "user_id");
  }

  /** When the profile request fails, the greeting's name is the e-mail
      prefix. */
  lemma NameFallsBackToPrefix(st: Store, data: Json, email: string, now: nat)
    requires st.hasWindow
    ensures UserName(SessionWrites(st, data, None, email, now)) == JStr(EmailPrefix(email))
  {
    var token := Lookup(data, "token");
    var st1 := if token.Some? then Add(st, Session, "auth_key", token.value) else AddUndefined(st, Session, "auth_key");
    var id := Or(Lookup(data, "userId"), Or(Lookup(data, "_id"), JStr(NatText(now))));
    var st2 := Add(st1, Session, "user_id", id);
    AddThenGet(st2, Session, "user_name", JStr(EmailPrefix(email)));
  }

  /** A field of a valid object is valid. */
  lemma LookupValid(o: Json, key: string)
    requires Valid(o)
    ensures Lookup(o, key).Some? ==> Valid(Lookup(o, key).value)
  {
    if Lookup(o, key).Some? {
      var i :| 0 <= i < |o.fields| && o.fields[i] == (key, Lookup(o, key).value);
      assert ValidField(o.fields[i]);
    }
  }
}

=== FILE: notes.dfy ===
/** The client's cached note record and the ownership tests made on it. */
module Notes {
  import Json
  import opened Lists

  /** A note's `userId` as the parsed cache holds it: missing, `null`, or
      an id string. */
  datatype Owner = Absent | Null | Id(s: string)

  /** JavaScript truthiness of a `userId`. */
  predicate OwnerTruthy(o: Owner) {
    o.Id? && o.s != ""
  }

  /** `String(note.userId)`. */
  function OwnerText(o: Owner): string {
    match o
    case Absent => "undefined"
    case Null => "null"
    case Id(s) => s
  }

  /** What the client stores as `userId: currentUserId`. The current user id
      is read from storage and is `null` when nothing is stored; the model
      writes that case as the empty string `uid`. */
  function CurrentOwner(uid: string): (o: Owner)
    ensures OwnerTruthy(o) <==> uid != ""
    ensures uid != "" ==> OwnerText(o) == uid
  {
    if uid == "" then Null else Id(uid)
  }

  /** A cached note: `id` is `String(note.id)`; `extra` holds any further
      fields the cached object carries. */
  datatype Note = Note(
    id: string,
    text: string,
    color: string,
    userId: Owner,
    createdAt: string,
    extra: map<string, Json.Json>)

  /** `isOwnedByUser` of the note card: the note has no owner, or its owner
      is strictly equal to the current user id. */
  predicate IsOwnedByUser(owner: Owner, uid: string): (b: bool)
    ensures !OwnerTruthy(owner) ==> b
    ensures OwnerTruthy(owner) ==> (b <==> OwnerText(owner) == uid)
  {
    !OwnerTruthy(owner) || owner == Id(uid)
  }

  /** The reconciliation's test for other users' notes:
      `note.userId && note.userId !== userId`. */
  predicate IsOthers(n: Note, uid: string) {
    OwnerTruthy(n.userId) && n.userId != Id(uid)
  }

  /** The reconciliation's test for the current user's notes:
      `String(note.userId) === String(userId)`. */
  predicate IsMine(n: Note, uid: string) {
    OwnerText(n.userId) == uid
  }

  /** For a signed-in user, the notes the cache keeps as other users' are
      exactly the notes the card refuses to change. */
  lemma OthersAreNotOwned(n: Note, uid: string)
    requires uid != ""
    ensures IsOthers(n, uid) <==> !IsOwnedByUser(n.userId, uid)
  {
  }

  /** A note of another user is never one of the current user's notes, but
      a note with no owner is neither: `String(undefined)` is "undefined". */
  lemma MineAndOthersDisjoint(n: Note, uid: string)
    requires uid != ""
    ensures !(IsMine(n, uid) && IsOthers(n, uid))
    ensures !OwnerTruthy(n.userId) ==> !IsOthers(n, uid)
    ensures n.userId == Absent ==> (IsMine(n, uid) <==> uid == "undefined")
  {
  }

  /** `notes.map(note => ({...note, userId}))`: every note stamped with the
      current user id, all other fields kept. */
  function Stamp(ns: seq<Note>, uid: string): (r: seq<Note>)
    ensures |r| == |ns|
    ensures forall i :: 0 <= i < |ns| ==> r[i] == ns[i].(userId := Id(uid))
  {
    seq(|ns|, i requires 0 <= i < |ns| => ns[i].(userId := Id(uid)))
  }

  /** Stamped notes all belong to the current user, as both the strict and
      the coercing comparison see it. */
  lemma StampOwned(ns: seq<Note>, uid: string)
    requires uid != ""
    ensures forall i :: 0 <= i < |ns| ==>
      IsMine(Stamp(ns, uid)[i], uid) && IsOwnedByUser(Stamp(ns, uid)[i].userId, uid)
      && !IsOthers(Stamp(ns, uid)[i], uid)
  {
  }

  function MineOf(ns: seq<Note>, uid: string): seq<Note> {
    Filter(ns, (n: Note) => IsMine(n, uid))
  }

  function OthersOf(ns: seq<Note>, uid: string): seq<Note> {
    Filter(ns, (n: Note) => IsOthers(n, uid))
  }
}

=== FILE: palette.dfy ===
/** The five note colours and `getColorName`, which the sidebar and the
    dashboard each define identically. */
module Palette {

  /** The default colour of a new note, on the client and in the schema. */
  const DefaultColor := "#FBEB95"

  /** The colour options of the note card, in picker order. */
  const Options: seq<string> := ["#FBEB95", "#97D2BC", "#FDBAA3", "#AED8FE", "#E8E8E8"]

  /** `colorMap`. */
  const Names: map<string, string> := map[
    "#FBEB95" := "Yellow",
    "#97D2BC" := "Green",
    "#FDBAA3" := "Coral",
    "#AED8FE" := "Blue",
    "#E8E8E8" := "Grey"]

  /** The properties every object literal inherits from `Object.prototype`,
      which a bracket lookup on `colorMap` finds as well. */
  const PrototypeMembers: set<string> := {
    "constructor", "hasOwnProperty", "isPrototypeOf", "propertyIsEnumerable",
    "toLocaleString", "toString", "valueOf", "__proto__",
    "__defineGetter__", "__defineSetter__", "__lookupGetter__", "__lookupSetter__"}

  /** A value `colorMap[hex] || hex` can produce: a string, or an inherited
      member of `Object.prototype` (a function, or the prototype itself). */
  datatype Looked = Text(s: string) | Inherited(name: string)

  /** `getColorName` as written: the bracket lookup also finds inherited
      members, which are truthy and are returned in place of `hex`. */
  function ColorNameAsWritten(hex: string): (r: Looked)
    ensures hex in Names ==> r == Text(Names[hex])
    ensures hex !in Names && hex !in PrototypeMembers ==> r == Text(hex)
    ensures hex !in Names && hex in PrototypeMembers ==> r == Inherited(hex)
  {
    if hex in Names then Text(Names[hex])
    else if hex in PrototypeMembers then Inherited(hex)
    else Text(hex)
  }

  /** A colour that names a member of `Object.prototype` does not come back
      as a string. */
  lemma AsWrittenReturnsInherited()
    ensures ColorNameAsWritten("toString") == Inherited("toString")
    ensures !ColorNameAsWritten("constructor").Text?
  {
  }

  /** `getColorName` as evidently intended: the palette name of a palette
      colour, the input itself for anything else. */
  function ColorName(hex: string): (r: string)
    ensures hex in Names ==> r == Names[hex]
    ensures hex !in Names ==> r == hex
  {
    if hex in Names then Names[hex] else hex
  }

  /** The corrected lookup is total and string-valued, and it agrees with the
      code as written on every input that is not an inherited member name. */
  lemma ColorNameAgrees(hex: string)
    requires hex !in PrototypeMembers
    ensures ColorNameAsWritten(hex) == Text(ColorName(hex))
  {
  }

  /** Every picker option, and only those, has a name of its own; the names
      are pairwise different, and the default colour is Yellow. */
  lemma PaletteNamed(hex: string)
    ensures ColorName(hex) != hex <==> hex in Options
    ensures forall i, j :: 0 <= i < j < |Options| ==> ColorName(Options[i]) != ColorName(Options[j])
    ensures ColorName(DefaultColor) == "Yellow"
  {
    var isOption := hex == "#FBEB95" || hex == "#97D2BC" || hex == "#FDBAA3"
      || hex == "#AED8FE" || hex == "#E8E8E8";
    assert hex in Options <==> isOption;
    assert hex in Names <==> isOption;
    if hex in Names {
      assert Names[hex][0] != '#';
    }
  }
}

=== FILE: reconcile.dfy ===
/** The notes page's `fetchNotes`: how the shown list and the note cache are
    chosen from the cached notes, the server's answer and the bundled
    sample notes. */
module Reconcile {
  import opened JsText
  import opened Lists
  import opened Notes

  /** What `getAllNotes(token)` produced: it threw, it answered something
      that is not an array, or it answered a list of notes. */
  datatype Fetched = Threw | NotNotes | Notes(notes: seq<Note>)

  /** The effect of one `fetchNotes` run: the list set as page state (`None`
      when it is left as it was) and the list written to the note cache
      (`None` when the cache is not written). */
  datatype Outcome = Outcome(shown: Option<seq<Note>>, write: Option<seq<Note>>)

  const NoChange := Outcome(None, None)

  /** The list a rewrite stores: the user's new list, then the other users'
      cached notes. */
  function Rewrite(incoming: seq<Note>, stored: seq<Note>, uid: string): seq<Note> {
    incoming + OthersOf(stored, uid)
  }

  /** Show `incoming` and store it before the other users' notes. */
  function Adopt(incoming: seq<Note>, stored: seq<Note>, uid: string): Outcome {
    Outcome(Some(incoming), Some(Rewrite(incoming, stored, uid)))
  }

  /** `fetchNotes`. `uid` is the stored user id, the empty string standing for
      a missing or falsy one; `hasToken` says whether an auth token is stored;
      `samples` is the bundled sample list. */
  function FetchNotes(uid: string, hasToken: bool, initialLoad: bool,
                      stored: seq<Note>, fetched: Fetched, samples: seq<Note>): (o: Outcome)
    ensures uid == "" ==> o == NoChange
    ensures o.write.Some? ==> o.shown.Some? && o.write.value == Rewrite(o.shown.value, stored, uid)
    ensures o.shown.Some? ==> forall i :: 0 <= i < |o.shown.value| ==>
      o.shown.value[i].userId == Id(uid) && IsMine(o.shown.value[i], uid)
  {
    if uid == "" then NoChange
    else
      var mine := MineOf(stored, uid);
      if |mine| > 0 then
        var updated := Stamp(mine, uid);
        if exists i :: 0 <= i < |updated| && !OwnerTruthy(updated[i].userId) then
          Adopt(updated, stored, uid)
        else
          Outcome(Some(updated), None)
      else if hasToken && !initialLoad then
        if fetched.Notes? && |fetched.notes| > 0 then
          Adopt(Stamp(fetched.notes, uid), stored, uid)
        else
          // Both the empty or non-array answer and the thrown error fall
          // back to the samples; their own `!initialLoad` tests always hold.
          Adopt(Stamp(samples, uid), stored, uid)
      else NoChange
  }

  /** With a user id and a cached note of that user, the page shows those
      notes in cached order, stamped with the id, and never writes the cache:
      the repair test finds every stamped note owned. */
  lemma CacheHit(uid: string, hasToken: bool, initialLoad: bool,
                 stored: seq<Note>, fetched: Fetched, samples: seq<Note>)
    requires uid != "" && |MineOf(stored, uid)| > 0
    ensures FetchNotes(uid, hasToken, initialLoad, stored, fetched, samples)
      == Outcome(Some(Stamp(MineOf(stored, uid), uid)), None)
    ensures Sublist(MineOf(stored, uid), stored)
  {
    FilterSublist(stored, (n: Note) => IsMine(n, uid));
  }

  /** A stored id that is the text "undefined" matches a cached note without
      an owner, since `String(undefined)` is "undefined": the cache hit
      shows that note, stamped with the id. */
  lemma UndefinedIdAdoptsOwnerless(n: Note, hasToken: bool, initialLoad: bool,
                                   fetched: Fetched, samples: seq<Note>)
    requires n.userId == Absent
    ensures FetchNotes("undefined", hasToken, initialLoad, [n], fetched, samples).shown
      == Some([n.(userId := Id("undefined"))])
  {
    assert IsMine(n, "undefined");
    assert MineOf([n], "undefined") == [n];
    CacheHit("undefined", hasToken, initialLoad, [n], fetched, samples);
    assert Stamp([n], "undefined") == [n.(userId := Id("undefined"))];
  }

  /** Stamping a cached note of the user changes it only when its owner was
      missing or `null` and the id is literally "undefined" or "null": then the
      cache hit shows the cached notes exactly. */
  lemma CacheHitShowsStoredNotes(uid: string, stored: seq<Note>)
    requires uid != "" && uid != "undefined" && uid != "null"
    ensures Stamp(MineOf(stored, uid), uid) == MineOf(stored, uid)
  {
    var mine := MineOf(stored, uid);
    forall i | 0 <= i < |mine|
      ensures mine[i].userId == Id(uid)
    {
      assert IsMine(mine[i], uid);
    }
  }

  /** A signed-in user with no cached notes, a token and a non-empty server
      list sees that list in server order, stamped with the id, and the
      cache is rewritten with it. */
  lemma ServerNotesAdopted(uid: string, stored: seq<Note>, ns: seq<Note>, samples: seq<Note>)
    requires uid != "" && |MineOf(stored, uid)| == 0 && |ns| > 0
    ensures FetchNotes(uid, true, false, stored, Notes(ns), samples) == Adopt(Stamp(ns, uid), stored, uid)
  {
  }

  /** An empty list, a non-array answer and a thrown error all lead to the
      same outcome: the stamped samples, written the same way. */
  lemma FallbacksAgree(uid: string, stored: seq<Note>, samples: seq<Note>)
    requires uid != "" && |MineOf(stored, uid)| == 0
    ensures FetchNotes(uid, true, false, stored, Threw, samples) == Adopt(Stamp(samples, uid), stored, uid)
    ensures FetchNotes(uid, true, false, stored, NotNotes, samples) == Adopt(Stamp(samples, uid), stored, uid)
    ensures FetchNotes(uid, true, false, stored, Notes([]), samples) == Adopt(Stamp(samples, uid), stored, uid)
  {
  }

  /** Without a token, or during the initial load, a user with no cached notes
      gets no change to the list or the cache. */
  lemma NoTokenNoChange(uid: string, hasToken: bool, initialLoad: bool,
                        stored: seq<Note>, fetched: Fetched, samples: seq<Note>)
    requires |MineOf(stored, uid)| == 0 && (!hasToken || initialLoad)
    ensures FetchNotes(uid, hasToken, initialLoad, stored, fetched, samples) == NoChange
  {
  }

  /** A rewrite keeps every other user's note in cached order, with its
      cached multiplicity, drops every note that has no owner, and drops
      every note of the current user that is not in the new list. */
  lemma {:induction false} RewriteKeepsOthers(incoming: seq<Note>, stored: seq<Note>, uid: string)
    requires uid != ""
    ensures Rewrite(incoming, stored, uid)[..|incoming|] == incoming
    ensures Sublist(Rewrite(incoming, stored, uid)[|incoming|..], stored)
    ensures forall i :: 0 <= i < |stored| && IsOthers(stored[i], uid) ==>
      stored[i] in Rewrite(incoming, stored, uid)[|incoming|..]
    ensures forall n :: n in Rewrite(incoming, stored, uid)[|incoming|..] ==>
      OwnerTruthy(n.userId) && !IsMine(n, uid) && !IsOwnedByUser(n.userId, uid)
    ensures forall n :: multiset(Rewrite(incoming, stored, uid)[|incoming|..])[n] ==
                        if IsOthers(n, uid) then multiset(stored)[n] else 0
  {
    var w := Rewrite(incoming, stored, uid);
    var others := OthersOf(stored, uid);
    assert w[|incoming|..] == others;
    FilterSublist(stored, (n: Note) => IsOthers(n, uid));
    FilterCount(stored, (n: Note) => IsOthers(n, uid));
    forall n | n in others
      ensures OwnerTruthy(n.userId) && !IsMine(n, uid) && !IsOwnedByUser(n.userId, uid)
    {
      var i :| 0 <= i < |others| && others[i] == n;
      MineAndOthersDisjoint(n, uid);
      OthersAreNotOwned(n, uid);
    }
  }
}

=== FILE: search.dfy ===
/** The notes page's search filter, applied both by the search effect and by
    `refreshNotes` when it is handed a fresh list. `lower` is the engine's
    `toLowerCase`: full Unicode case mapping is context-sensitive and may
    change a text's length, so it is a parameter and the properties below
    hold for every such mapping unless they say otherwise. */
module Search {
  import opened JsText
  import opened Lists
  import opened Notes

  /** The note's lower-cased text contains the lower-cased term. The term is
      not trimmed here: only the blank test trims it. */
  predicate Matches(n: Note, term: string, lower: string -> string): (b: bool)
    ensures lower(term) == [] ==> b
    ensures lower(n.text) == lower(term) ==> b
  {
    var t, w := lower(n.text), lower(term);
    assert w == [] || t == w ==> t[0..|w|] == w && OccursAt(t, w, 0);
    Contains(t, w)
  }

  /** The filtered list shown for `term`. */
  function Search(notes: seq<Note>, term: string, lower: string -> string): (r: seq<Note>)
    ensures |r| <= |notes|
    ensures IsBlank(term) ==> r == notes
    ensures forall i :: 0 <= i < |r| ==> r[i] in notes
  {
    if IsBlank(term) then notes else Filter(notes, (n: Note) => Matches(n, term, lower))
  }

  /** A term that is empty after trimming shows the whole list. */
  lemma BlankShowsAll(notes: seq<Note>, term: string, lower: string -> string)
    requires Trim(term) == []
    ensures Search(notes, term, lower) == notes
  {
  }

  /** Otherwise the result keeps the input's order and holds every copy of
      each note whose text matches the term, and nothing else. */
  lemma SearchIsMatchingSublist(notes: seq<Note>, term: string, lower: string -> string)
    requires Trim(term) != []
    ensures Sublist(Search(notes, term, lower), notes)
    ensures forall n :: multiset(Search(notes, term, lower))[n] ==
                        if Matches(n, term, lower) then multiset(notes)[n] else 0
  {
    FilterSublist(notes, (n: Note) => Matches(n, term, lower));
    FilterCount(notes, (n: Note) => Matches(n, term, lower));
  }

  /** Searching the result again with the same term changes nothing. */
  lemma SearchIdempotent(notes: seq<Note>, term: string, lower: string -> string)
    ensures Search(Search(notes, term, lower), term, lower) == Search(notes, term, lower)
  {
    if !IsBlank(term) {
      FilterIdempotent(notes, (n: Note) => Matches(n, term, lower));
    }
  }

  /** For a case mapping that works character by character, a note whose
      text contains the term verbatim is always kept. JavaScript's own
      `toLowerCase` is not of this kind (a final sigma lowers differently),
      so this is a property of such mappings only. */
  lemma OccurrenceMatches(n: Note, term: string, i: int, f: char -> char)
    requires OccursAt(n.text, term, i)
    ensures Matches(n, term, (s: string) => MapChars(s, f))
  {
    var lt := MapChars(n.text, f);
    var lw := MapChars(term, f);
    assert lt[i..i + |lw|] == lw by {
      forall k | 0 <= k < |lw|
        ensures lt[i..i + |lw|][k] == lw[k]
      {
        assert n.text[i..i + |term|][k] == term[k];
      }
    }
    assert OccursAt(lt, lw, i);
  }

  /** What `refreshNotes(updated)` does to the page state. */
  datatype Refreshed = Refreshed(notes: seq<Note>, filtered: seq<Note>)

  /** `refreshNotes`: a given list replaces the notes and is filtered with the
      current term; without one only a re-fetch is requested, which is
      outside this function (`None`). */
  function Refresh(updated: Option<seq<Note>>, term: string, lower: string -> string): (r: Option<Refreshed>)
    ensures r.Some? <==> updated.Some?
    ensures r.Some? ==> r.value.notes == updated.value
  {
    match updated
    case None => None
    case Some(ns) =>
      var filtered := if Trim(term) == [] then ns
        else Filter(ns, (n: Note) => Contains(lower(n.text), lower(term)));
      Some(Refreshed(ns, filtered))
  }

  /** `refreshNotes` and the search effect filter a list identically. */
  lemma RefreshAgreesWithSearch(ns: seq<Note>, term: string, lower: string -> string)
    ensures Refresh(Some(ns), term, lower) == Some(Refreshed(ns, Search(ns, term, lower)))
  {
    if Trim(term) != [] {
      FilterSamePredicate(ns, (n: Note) => Contains(lower(n.text), lower(term)),
        (n: Note) => Matches(n, term, lower));
    }
  }
}

=== FILE: server.dfy ===
/** The server's note store: the Mongoose `Notes` schema and the five note
    controllers, over an abstract document map from id to stored note. The
    actor is the id the authentication middleware put in `req.usertoken`;
    `fault` stands for the database call throwing. */
module Server {
  import opened JsText

  /** A stored document of the `Notes` collection. */
  datatype StoredNote = StoredNote(
    text: string,
    userId: string,
    color: string,
    isDeleted: bool,
    createdAt: string)

  /** The collection, keyed by document id. */
  type Collection = map<string, StoredNote>

  /** The schema's default colour. */
  const DefaultColor := "#FBEB95"

  /** What a controller sends: a note, the owner's notes (keyed by id, since
      the query promises no order), or a `{ message }` object. */
  datatype Body = One(note: StoredNote) | Many(notes: Collection) | Message(text: string)

  /** The status, the body and the collection after the request. */
  datatype Reply = Reply(status: nat, body: Body, db: Collection)

  const InternalError := "Internal Server Error"
  const NotFound := "Note not found"
  const Unauthorized := "Unauthorized"

  /** The catch branch every controller shares. */
  function Failure(db: Collection): Reply {
    Reply(500, Message(InternalError), db)
  }

  // ---------------------------------------------------------------------
  // Schema

  /** The schema's required checks on a new document: a non-empty `text`
      (Mongoose rejects a missing or empty required string) and a non-empty
      `userId`. */
  predicate Admissible(text: Option<string>, userId: string) {
    text.Some? && text.value != "" && userId != ""
  }

  /** The document `new Note({ text, color, userId })` builds once it
      validates: `color` falls back to the default, `isDeleted` to false and
      `createdAt` to `schemaStamp`, the one string `new Date().toISOString()`
      gave when the schema was defined. */
  function NewDocument(text: string, color: Option<string>, userId: string, schemaStamp: string): (d: StoredNote)
    ensures color.None? ==> d.color == DefaultColor
    ensures color.Some? ==> d.color == color.value
    ensures d.text == text && d.userId == userId && !d.isDeleted && d.createdAt == schemaStamp
  {
    StoredNote(text, userId, if color.Some? then color.value else DefaultColor, false, schemaStamp)
  }

  // ---------------------------------------------------------------------
  // Controllers

  /** `createNote`. Only `text` and `color` come from the body (`None`: the
      field is missing); the owner is the actor. `newId` is the id the new
      document receives; saving under an id already taken fails. */
  function Create(db: Collection, actor: string, text: Option<string>, color: Option<string>,
                  newId: string, schemaStamp: string, fault: bool): (r: Reply)
    ensures r.status == 201 <==> !fault && Admissible(text, actor) && newId !in db
    ensures r.status != 201 ==> r == Failure(db)
    ensures r.status == 201 ==>
      && r.db.Keys == db.Keys + {newId}
      && (forall k :: k in db ==> r.db[k] == db[k])
      && r.body == One(r.db[newId])
      && r.db[newId].userId == actor && r.db[newId].text == text.value
      && r.db[newId].color == (if color.Some? then color.value else DefaultColor)
      && !r.db[newId].isDeleted && r.db[newId].createdAt == schemaStamp
  {
    if fault || !Admissible(text, actor) || newId in db then Failure(db)
    else
      var d := NewDocument(text.value, color, actor, schemaStamp);
      Reply(201, One(d), db[newId := d])
  }

  /** `getNote`: the document with the id, whoever owns it and whether or
      not it is deleted. */
  function GetNote(db: Collection, id: string, fault: bool): (r: Reply)
    ensures r.db == db
    ensures fault ==> r.status == 500
    ensures !fault && id in db ==> r == Reply(200, One(db[id]), db)
    ensures !fault && id !in db ==> r == Reply(404, Message(NotFound), db)
  {
    if fault then Failure(db)
    else if id !in db then Reply(404, Message(NotFound), db)
    else Reply(200, One(db[id]), db)
  }

  /** The query `{ userId: actor, isDeleted: false }`. */
  function OwnedLive(db: Collection, actor: string): (m: Collection)
    ensures forall k :: k in m <==> k in db && db[k].userId == actor && !db[k].isDeleted
    ensures forall k :: k in m ==> m[k] == db[k]
  {
    map k | k in db && db[k].userId == actor && !db[k].isDeleted :: db[k]
  }

  /** `getAllNotes`. */
  function GetAll(db: Collection, actor: string, fault: bool): (r: Reply)
    ensures r.db == db
    ensures r.status == 200 <==> !fault
    ensures !fault ==> r.body.Many? && r.body.notes == OwnedLive(db, actor)
  {
    if fault then Failure(db) else Reply(200, Many(OwnedLive(db, actor)), db)
  }

  /** The 404 and 403 guards `updateNote` and `deleteNote` share; `None`
      lets the request through. */
  function Guard(db: Collection, actor: string, id: string): (r: Option<Reply>)
    ensures r.None? <==> id in db && db[id].userId == actor
    ensures r.Some? ==> r.value.db == db
    ensures id !in db ==> r == Some(Reply(404, Message(NotFound), db))
    ensures id in db && db[id].userId != actor ==> r == Some(Reply(403, Message(Unauthorized), db))
  {
    if id !in db then Some(Reply(404, Message(NotFound), db))
    else if db[id].userId != actor then Some(Reply(403, Message(Unauthorized), db))
    else None
  }

  /** The `{ text, color }` part of the update; a missing field is left out
      of the update and so leaves the stored value alone. */
  function Patch(d: StoredNote, text: Option<string>, color: Option<string>): (e: StoredNote)
    ensures e.userId == d.userId && e.isDeleted == d.isDeleted && e.createdAt == d.createdAt
    ensures e.text == (if text.Some? then text.value else d.text)
    ensures e.color == (if color.Some? then color.value else d.color)
  {
    d.(text := if text.Some? then text.value else d.text,
       color := if color.Some? then color.value else d.color)
  }

  /** `updateNote`: the owner may change `text` and `color` of any of their
      documents, deleted or not; the reply carries the updated document. */
  function Update(db: Collection, actor: string, id: string, text: Option<string>,
                  color: Option<string>, fault: bool): (r: Reply)
    ensures r.status == 200 <==> !fault && id in db && db[id].userId == actor
    ensures r.status != 200 ==> r.db == db
    ensures !fault && id !in db ==> r.status == 404
    ensures !fault && id in db && db[id].userId != actor ==> r.status == 403
    ensures r.status == 200 ==>
      && r.db.Keys == db.Keys
      && (forall k :: k in db && k != id ==> r.db[k] == db[k])
      && r.db[id] == Patch(db[id], text, color)
      && r.body == One(r.db[id])
  {
    if fault then Failure(db)
    else match Guard(db, actor, id)
      case Some(refusal) => refusal
      case None =>
        var e := Patch(db[id], text, color);
        Reply(200, One(e), db[id := e])
  }

  const Deleted := "Note deleted successfully"

  /** `deleteNote`: a soft delete that only raises the owner's `isDeleted`
      flag. */
  function Delete(db: Collection, actor: string, id: string, fault: bool): (r: Reply)
    ensures r.status == 200 <==> !fault && id in db && db[id].userId == actor
    ensures r.status != 200 ==> r.db == db
    ensures !fault && id !in db ==> r.status == 404
    ensures !fault && id in db && db[id].userId != actor ==> r.status == 403
    ensures r.status == 200 ==>
      && r.db.Keys == db.Keys
      && (forall k :: k in db && k != id ==> r.db[k] == db[k])
      && r.db[id] == db[id].(isDeleted := true)
      && r.body == Message(Deleted)
  {
    if fault then Failure(db)
    else match Guard(db, actor, id)
      case Some(refusal) => refusal
      case None => Reply(200, Message(Deleted), db[id := db[id].(isDeleted := true)])
  }

  // ---------------------------------------------------------------------
  // Properties relating the controllers

  /** A created note is among its owner's notes, and the listing gains
      exactly that note. */
  lemma CreateThenList(db: Collection, actor: string, text: Option<string>, color: Option<string>,
                       newId: string, schemaStamp: string)
    requires Create(db, actor, text, color, newId, schemaStamp, false).status == 201
    ensures var after := Create(db, actor, text, color, newId, schemaStamp, false).db;
      OwnedLive(after, actor) == OwnedLive(db, actor)[newId := after[newId]]
  {
  }

  /** A note created by one user never shows in another user's list. */
  lemma CreateInvisibleToOthers(db: Collection, actor: string, other: string, text: Option<string>,
                                color: Option<string>, newId: string, schemaStamp: string)
    requires other != actor
    ensures OwnedLive(Create(db, actor, text, color, newId, schemaStamp, false).db, other)
      == OwnedLive(db, other)
  {
  }

  /** The create handler takes only `text` and `color` from the request
      body, so a `createdAt` the client sends is ignored, and the schema's
      default is one string per server process (`schemaStamp`): any two
      notes one process creates carry the same `createdAt`, whoever creates
      them and whatever they hold. */
  lemma CreatesShareCreatedAt(db1: Collection, actor1: string, text1: Option<string>, color1: Option<string>,
                              id1: string, db2: Collection, actor2: string, text2: Option<string>,
                              color2: Option<string>, id2: string, schemaStamp: string)
    requires Create(db1, actor1, text1, color1, id1, schemaStamp, false).status == 201
    requires Create(db2, actor2, text2, color2, id2, schemaStamp, false).status == 201
    ensures Create(db1, actor1, text1, color1, id1, schemaStamp, false).body.note.createdAt
         == Create(db2, actor2, text2, color2, id2, schemaStamp, false).body.note.createdAt
  {
  }

  /** After a delete the note leaves its owner's list, but `getNote` still
      finds it, flagged as deleted. */
  lemma DeleteHidesButKeeps(db: Collection, actor: string, id: string)
    requires Delete(db, actor, id, false).status == 200
    ensures var after := Delete(db, actor, id, false).db;
      && id !in OwnedLive(after, actor)
      && GetNote(after, id, false).status == 200
      && GetNote(after, id, false).body.note.isDeleted
      && GetNote(after, id, false).body.note.text == db[id].text
  {
  }

  /** Deleting again succeeds again and changes nothing more. */
  lemma DeleteIdempotent(db: Collection, actor: string, id: string)
    requires Delete(db, actor, id, false).status == 200
    ensures var once := Delete(db, actor, id, false);
      Delete(once.db, actor, id, false) == once
  {
    var once := Delete(db, actor, id, false);
    assert once.db[id := once.db[id].(isDeleted := true)] == once.db;
  }

  /** A deleted note can still be updated by its owner, and stays deleted. */
  lemma UpdateAfterDelete(db: Collection, actor: string, id: string, text: Option<string>,
                          color: Option<string>)
    requires Delete(db, actor, id, false).status == 200
    ensures var after := Delete(db, actor, id, false).db;
      && Update(after, actor, id, text, color, false).status == 200
      && Update(after, actor, id, text, color, false).db[id].isDeleted
  {
  }

  /** An update never moves a note between users' lists, and it changes the
      owner's list only at that note. */
  lemma UpdateKeepsLists(db: Collection, actor: string, id: string, text: Option<string>,
                         color: Option<string>, who: string)
    requires Update(db, actor, id, text, color, false).status == 200
    ensures var after := Update(db, actor, id, text, color, false).db;
      && OwnedLive(after, who).Keys == OwnedLive(db, who).Keys
      && (forall k :: k in OwnedLive(db, who) && k != id ==> OwnedLive(after, who)[k] == db[k])
  {
  }

  /** Every refused or failed request leaves the collection as it was, and
      nothing but a successful create, update or delete changes it. */
  lemma OnlySuccessWrites(db: Collection, actor: string, id: string, text: Option<string>,
                          color: Option<string>, newId: string, schemaStamp: string, fault: bool)
    ensures fault ==> Create(db, actor, text, color, newId, schemaStamp, fault).db == db
    ensures fault ==> Update(db, actor, id, text, color, fault).db == db
    ensures fault ==> Delete(db, actor, id, fault).db == db
    ensures GetNote(db, id, fault).db == db && GetAll(db, actor, fault).db == db
    ensures Update(db, actor, id, text, color, fault).status in {200, 403, 404, 500}
    ensures Delete(db, actor, id, fault).status in {200, 403, 404, 500}
    ensures Create(db, actor, text, color, newId, schemaStamp, fault).status in {201, 500}
  {
  }
}

=== FILE: sidebar.dfy ===
/** The sidebar's edits to the note cache ("Add Note" and the clean-up at
    logout) and its statistics summary. */
module Sidebar {
  import opened JsText
  import opened Lists
  import opened Notes
  import opened Storage
  import Json
  import Tally
  import Palette

  // ---------------------------------------------------------------------
  // Add Note

  datatype AddResult = Ignored | Refused | Added(cache: seq<Note>, viewMode: string)

  /** The "Add Note" branch of `handleClick`: nothing during the initial
      load, a refusal without a user id, otherwise an empty note in front of
      the cache and the view switched to the notes. */
  function AddNote(initialLoad: bool, uid: string, now: nat, nowIso: string, cache: seq<Note>): (r: AddResult)
    ensures r.Added? <==> !initialLoad && uid != ""
    ensures r.Refused? <==> !initialLoad && uid == ""
    ensures r.Added? ==> |r.cache| == |cache| + 1 && r.cache[1..] == cache && !HasContent(r.cache[0])
  {
    if initialLoad then Ignored
    else if uid == "" then Refused
    else Added([Note(Json.NatText(now), "", Palette.DefaultColor, Id(uid), nowIso, map[])] + cache, "notes")
  }

  lemma AddNotePrepends(initialLoad: bool, uid: string, now: nat, nowIso: string, cache: seq<Note>)
    ensures initialLoad ==> AddNote(initialLoad, uid, now, nowIso, cache) == Ignored
    ensures !initialLoad && uid == "" ==> AddNote(initialLoad, uid, now, nowIso, cache) == Refused
    ensures !initialLoad && uid != "" ==>
      var r := AddNote(initialLoad, uid, now, nowIso, cache);
      && r.Added? && r.viewMode == "notes"
      && |r.cache| == |cache| + 1 && r.cache[1..] == cache
      && r.cache[0].text == "" && r.cache[0].color == Palette.DefaultColor
      && r.cache[0].userId == Id(uid) && IsMine(r.cache[0], uid) && r.cache[0].createdAt == nowIso
  {
    if !initialLoad && uid != "" {
      var r := AddNote(initialLoad, uid, now, nowIso, cache);
      assert r.cache == [r.cache[0]] + cache;
    }
  }

  // ---------------------------------------------------------------------
  // Logout

  /** `note.text && note.text.trim().length > 0`. */
  predicate HasContent(n: Note) {
    n.text != "" && |Trim(n.text)| > 0
  }

  datatype LogoutResult = LogoutResult(write: Option<seq<Note>>, cleaned: nat, store: Store)

  /** `handleLogout`: drop the notes without content, write the cache back
      only when something was dropped, then remove the durable `auth_key`. */
  function Logout(cache: seq<Note>, st: Store): (r: LogoutResult)
    ensures r.write.Some? <==> r.cleaned > 0
    ensures r.write.Some? ==> |r.write.value| + r.cleaned == |cache|
    ensures Get(r.store, Durable, "auth_key") == Json.JNull
  {
    var kept := Filter(cache, HasContent);
    var st' := Remove(st, Durable, "auth_key");
    if |cache| > 0 && |kept| < |cache| then LogoutResult(Some(kept), |cache| - |kept|, st')
    else LogoutResult(None, 0, st')
  }

  /** A note has content exactly when its text is not all white space. */
  lemma HasContentIffNotBlank(n: Note)
    ensures HasContent(n) <==> !IsBlank(n.text)
  {
  }

  /** Logout keeps, in order, exactly the notes with content, each as many
      times as the cache held it; it writes that list back only when some
      note had none, and reports how many it dropped. */
  lemma LogoutPrunes(cache: seq<Note>, st: Store)
    ensures Logout(cache, st).write.Some? <==> exists i :: 0 <= i < |cache| && IsBlank(cache[i].text)
    ensures Logout(cache, st).write.Some? ==> Logout(cache, st).write.value == Filter(cache, HasContent)
    ensures Logout(cache, st).cleaned == |cache| - |Filter(cache, HasContent)|
    ensures Sublist(Filter(cache, HasContent), cache)
    ensures forall n :: n in Filter(cache, HasContent) <==> n in cache && !IsBlank(n.text)
    ensures forall n :: multiset(Filter(cache, HasContent))[n] ==
                        if IsBlank(n.text) then 0 else multiset(cache)[n]
  {
    SomeBlankIffShrinks(cache);
    FilterSublist(cache, HasContent);
    KeptAreNonBlank(cache);
  }

  /** Some note is blank exactly when the notes with content are fewer. */
  lemma SomeBlankIffShrinks(cache: seq<Note>)
    ensures |Filter(cache, HasContent)| < |cache| <==> exists i :: 0 <= i < |cache| && IsBlank(cache[i].text)
  {
    FilterShrinks(cache, HasContent);
    if exists i :: 0 <= i < |cache| && IsBlank(cache[i].text) {
      var i :| 0 <= i < |cache| && IsBlank(cache[i].text);
      assert !HasContent(cache[i]);
    }
  }

  /** The notes logout keeps, by membership and by multiplicity. */
  lemma KeptAreNonBlank(cache: seq<Note>)
    ensures forall n :: n in Filter(cache, HasContent) <==> n in cache && !IsBlank(n.text)
    ensures forall n :: multiset(Filter(cache, HasContent))[n] ==
                        if IsBlank(n.text) then 0 else multiset(cache)[n]
  {
    FilterCount(cache, HasContent);
    forall n | n in cache && !IsBlank(n.text)
      ensures n in Filter(cache, HasContent)
    {
      var i :| 0 <= i < |cache| && cache[i] == n;
    }
  }

  /** A second logout finds nothing to clean up. */
  lemma LogoutIdempotent(cache: seq<Note>, st: Store)
    requires Logout(cache, st).write.Some?
    ensures Logout(Logout(cache, st).write.value, st).write == None
    ensures Logout(Logout(cache, st).write.value, st).cleaned == 0
  {
    FilterIdempotent(cache, HasContent);
  }

  /** Logout signs out of the durable area only: its `auth_key` reads as
      null afterwards and the session area is left alone. */
  lemma LogoutRemovesAuthKey(cache: seq<Note>, st: Store)
    ensures Get(Logout(cache, st).store, Durable, "auth_key") == Json.JNull
    ensures Logout(cache, st).store.session == st.session
  {
  }

  /** A note added and never written to is cleaned up at logout: the cache
      is pruned exactly as if it had not been added. */
  lemma AddedNoteCleanedAtLogout(uid: string, now: nat, nowIso: string, cache: seq<Note>, st: Store)
    requires uid != ""
    ensures var added := AddNote(false, uid, now, nowIso, cache).cache;
      && Logout(added, st).write == Some(Filter(cache, HasContent))
      && Logout(added, st).cleaned == Logout(cache, st).cleaned + 1
  {
    var added := AddNote(false, uid, now, nowIso, cache).cache;
    assert added == [added[0]] + cache;
    FilterAppend([added[0]], cache, HasContent);
    assert Filter([added[0]], HasContent) == [];
  }

  // ---------------------------------------------------------------------
  // Statistics summary

  /** The colours of the notes, in order. */
  function Colors(notes: seq<Note>): (cs: seq<string>)
    ensures |cs| == |notes|
    ensures forall i :: 0 <= i < |notes| ==> cs[i] == notes[i].color
  {
    seq(|notes|, i requires 0 <= i < |notes| => notes[i].color)
  }

  /** `!note.text.trim()`. */
  predicate Blank(n: Note) {
    Trim(n.text) == []
  }

  datatype Summary = Summary(total: nat, empty: nat, mostUsed: string, mostUsedName: string)

  /** `displayNoteStatsSummary`: nothing for an empty list; otherwise the
      note count, the number of blank notes and the most used colour, with
      ties going to the colour seen first. The colour's name is given by the
      corrected `Palette.ColorName`, while the code calls the as-written
      `getColorName`; the two agree on every colour that is not an
      `Object.prototype` member name (`Palette.ColorNameAgrees`), which is
      the ordinary-key assumption the histogram already makes. */
  method StatsSummary(notes: seq<Note>) returns (s: Option<Summary>)
    ensures s.None? <==> notes == []
    ensures s.Some? ==> s.value.total == |notes| && s.value.empty == |Filter(notes, Blank)|
    ensures s.Some? ==> s.value.mostUsedName == Palette.ColorName(s.value.mostUsed)
    ensures s.Some? ==> var cs := Colors(notes);
      && s.value.mostUsed in cs
      && (forall d :: d in cs ==> multiset(cs)[d] <= multiset(cs)[s.value.mostUsed])
      && (forall d :: d in cs && multiset(cs)[d] == multiset(cs)[s.value.mostUsed] ==>
            Tally.FirstIndex(cs, s.value.mostUsed) <= Tally.FirstIndex(cs, d))
  {
    if notes == [] {
      return None;
    }
    var cs := Colors(notes);
    var color, count := Tally.MostUsed(Tally.Count(cs));
    Tally.Winner(cs, color, count);
    s := Some(Summary(|notes|, |Filter(notes, Blank)|, color, Palette.ColorName(color)));
  }

  /** The summary's empty count is the number of notes logout cleans up. */
  lemma EmptyCountIsCleanedCount(notes: seq<Note>, st: Store)
    ensures |Filter(notes, Blank)| == Logout(notes, st).cleaned
  {
    SplitCount(notes);
  }

  lemma {:induction false} SplitCount(notes: seq<Note>)
    ensures |Filter(notes, Blank)| + |Filter(notes, HasContent)| == |notes|
  {
    if notes != [] {
      SplitCount(notes[1..]);
    }
  }
}

=== FILE: storage.dfy ===
/** The client's key/value storage adapter: two independent areas of raw
    strings, the durable one (`localStorage`) and the per-tab one
    (`sessionStorage`), written with `JSON.stringify` and read back with
    `JSON.parse`. */
module Storage {
  import opened JsText
  import opened Json

  datatype Scope = Durable | Session

  /** The browser's storage as the adapter sees it. Without a window (server
      rendering) the adapter touches nothing. */
  datatype Store = Store(hasWindow: bool, durable: map<string, string>, session: map<string, string>)

  function Other(scope: Scope): Scope {
    if scope == Durable then Session else Durable
  }

  /** The raw map of one area. */
  function Area(st: Store, scope: Scope): map<string, string> {
    if scope == Durable then st.durable else st.session
  }

  function WithArea(st: Store, scope: Scope, m: map<string, string>): (r: Store)
    ensures Area(r, scope) == m && Area(r, Other(scope)) == Area(st, Other(scope))
    ensures r.hasWindow == st.hasWindow
  {
    if scope == Durable then st.(durable := m) else st.(session := m)
  }

  /** `addToLocalStorage` / `addToSessionStorage`: store the JSON text of `v`
      under `key`. */
  function Add(st: Store, scope: Scope, key: string, v: Json): (r: Store)
    ensures !st.hasWindow ==> r == st
    ensures st.hasWindow ==> Area(r, scope) == Area(st, scope)[key := Stringify(v)]
    ensures Area(r, Other(scope)) == Area(st, Other(scope)) && r.hasWindow == st.hasWindow
  {
    if st.hasWindow then WithArea(st, scope, Area(st, scope)[key := Stringify(v)]) else st
  }

  /** `removeFromLocalStorage` / `removeFromSessionStorage`. */
  function Remove(st: Store, scope: Scope, key: string): (r: Store)
    ensures !st.hasWindow ==> r == st
    ensures st.hasWindow ==> Area(r, scope) == Area(st, scope) - {key}
    ensures Area(r, Other(scope)) == Area(st, Other(scope)) && r.hasWindow == st.hasWindow
  {
    if st.hasWindow then WithArea(st, scope, Area(st, scope) - {key}) else st
  }

  /** `getFromLocalStorage` / `getFromSessionStorage`: `null` when there is no
      window or the raw value is missing or empty; the parsed value when the
      raw text is JSON; the raw text itself otherwise. */
  function Get(st: Store, scope: Scope, key: string): (r: Json)
    ensures !st.hasWindow || key !in Area(st, scope) || Area(st, scope)[key] == "" ==> r == JNull
    ensures st.hasWindow && key in Area(st, scope) && Parse(Area(st, scope)[key]).Some?
      ==> r == Parse(Area(st, scope)[key]).value
    ensures st.hasWindow && key in Area(st, scope) && Area(st, scope)[key] != "" ==>
      (Parse(Area(st, scope)[key]).None? ==> r == JStr(Area(st, scope)[key]))
  {
    if !st.hasWindow || key !in Area(st, scope) then JNull
    else
      var raw := Area(st, scope)[key];
      if raw == "" then JNull
      else match Parse(raw)
        case Some(v) => v
        case None => JStr(raw)
  }

  /** Writing a value a JavaScript object graph can hold and reading it back
      gives the same value, in either area. */
  lemma AddThenGet(st: Store, scope: Scope, key: string, v: Json)
    requires st.hasWindow && Valid(v)
    ensures Get(Add(st, scope, key, v), scope, key) == v
  {
    RoundTrip(v);
    assert Stringify(v) != [];
  }

  /** A removed key reads as `null`. */
  lemma RemoveThenGet(st: Store, scope: Scope, key: string)
    ensures Get(Remove(st, scope, key), scope, key) == JNull
  {
  }

  /** Writing or removing a key changes no other key of that area and
      nothing of the other area. */
  lemma WriteFrame(st: Store, scope: Scope, key: string, v: Json, other: string)
    requires other != key
    ensures Get(Add(st, scope, key, v), scope, other) == Get(st, scope, other)
    ensures Get(Remove(st, scope, key), scope, other) == Get(st, scope, other)
    ensures forall k :: Get(Add(st, scope, key, v), Other(scope), k) == Get(st, Other(scope), k)
    ensures forall k :: Get(Remove(st, scope, key), Other(scope), k) == Get(st, Other(scope), k)
  {
  }

  /** Without a window every write is a no-op and every read is `null`. */
  lemma NoWindow(st: Store, scope: Scope, key: string, v: Json)
    requires !st.hasWindow
    ensures Add(st, scope, key, v) == st && Remove(st, scope, key) == st
    ensures Get(st, scope, key) == JNull
  {
  }

  /** `addToLocalStorage(key, undefined)` / `addToSessionStorage(key,
      undefined)`: `JSON.stringify(undefined)` is `undefined`, which
      `setItem` stores as the text "undefined". */
  function AddUndefined(st: Store, scope: Scope, key: string): (r: Store)
    ensures !st.hasWindow ==> r == st
    ensures st.hasWindow ==> Area(r, scope) == Area(st, scope)[key := "undefined"]
    ensures Area(r, Other(scope)) == Area(st, Other(scope)) && r.hasWindow == st.hasWindow
  {
    if st.hasWindow then WithArea(st, scope, Area(st, scope)[key := "undefined"]) else st
  }

  /** Raw text that is not JSON, such as the bare word a write of
      `undefined` leaves, is read back as itself: a truthy string. */
  lemma BareWordReadsAsText(st: Store, scope: Scope, key: string)
    requires st.hasWindow
    ensures Get(AddUndefined(st, scope, key), scope, key) == JStr("undefined")
    ensures Truthy(Get(AddUndefined(st, scope, key), scope, key))
  {
    var s := "undefined";
    assert KindOf(s[0]) == OtherToken;
    assert ParseLiteral(s) == Fail;
    ValueAtToken(s);
  }

  /** `getAuthToken`, `getUserId` and `getUserName`. */
  function AuthToken(st: Store): Json { Get(st, Session, "auth_key") }
  function UserId(st: Store): Json { Get(st, Session, "user_id") }
  function UserName(st: Store): Json { Get(st, Session, "user_name") }

  /** The three session getters depend on the session area alone: any change
      to the durable area leaves them as they were. */
  lemma GettersReadSessionOnly(st: Store, durable: map<string, string>)
    ensures AuthToken(st.(durable := durable)) == AuthToken(st)
    ensures UserId(st.(durable := durable)) == UserId(st)
    ensures UserName(st.(durable := durable)) == UserName(st)
  {
  }
}

=== FILE: tally.dfy ===
/** The colour histogram both statistics views build with
    `counts[c] = (counts[c] || 0) + 1`, listed as `Object.entries` lists
    it: each distinct colour once, in order of first appearance. */
module Tally {

  type Tally = seq<(string, nat)>

  /** Position of `k` in the tally, or -1 when it has no entry. */
  function IndexOf(t: Tally, k: string): (i: int)
    ensures -1 <= i < |t|
    ensures i >= 0 ==> t[i].0 == k
    ensures i < 0 ==> forall j :: 0 <= j < |t| ==> t[j].0 != k
  {
    if t == [] then -1
    else if t[|t| - 1].0 == k then |t| - 1
    else IndexOf(t[..|t| - 1], k)
  }

  /** One more occurrence of `k`: its count goes up, or it is appended with
      count 1. */
  function Bump(t: Tally, k: string): (r: Tally)
    ensures IndexOf(t, k) < 0 ==> r == t + [(k, 1)]
    ensures IndexOf(t, k) >= 0 ==> |r| == |t| && r[IndexOf(t, k)] == (k, t[IndexOf(t, k)].1 + 1)
    ensures IndexOf(t, k) >= 0 ==> forall m :: 0 <= m < |t| && m != IndexOf(t, k) ==> r[m] == t[m]
    ensures forall m :: 0 <= m < |t| ==> r[m].0 == t[m].0
  {
    var i := IndexOf(t, k);
    if i >= 0 then t[i := (k, t[i].1 + 1)] else t + [(k, 1)]
  }

  /** The histogram of `ks`, built left to right. */
  function Count(ks: seq<string>): (r: Tally)
    ensures |r| <= |ks|
    ensures ks != [] ==> r != []
    ensures forall i :: 0 <= i < |r| ==> r[i].1 > 0
  {
    if ks == [] then [] else Bump(Count(ks[..|ks| - 1]), ks[|ks| - 1])
  }

  predicate DistinctKeys(t: Tally) {
    forall i, j :: 0 <= i < j < |t| ==> t[i].0 != t[j].0
  }

  /** No colour has two entries. */
  lemma {:induction false} CountDistinct(ks: seq<string>)
    ensures DistinctKeys(Count(ks))
  {
    if ks != [] {
      CountDistinct(ks[..|ks| - 1]);
    }
  }

  /** Each entry counts the occurrences of its colour. */
  lemma {:induction false} CountCounts(ks: seq<string>)
    ensures forall i :: 0 <= i < |Count(ks)| ==>
      Count(ks)[i].0 in ks && Count(ks)[i].1 == multiset(ks)[Count(ks)[i].0]
  {
    if ks != [] {
      var n := |ks| - 1;
      var a, x := ks[..n], ks[n];
      assert ks == a + [x];
      CountCounts(a);
      CountDistinct(a);
      CountCovers(a);
      var t := Count(a);
      var r := Count(ks);
      var p := IndexOf(t, x);
      assert multiset(ks) == multiset(a) + multiset{x};
      if p < 0 {
        assert x !in a;
      }
      forall m | 0 <= m < |r|
        ensures r[m].0 in ks && r[m].1 == multiset(ks)[r[m].0]
      {
        if m < |t| && m != p {
          assert r[m] == t[m];
          assert t[m].0 != x;
        }
      }
    }
  }

  /** Every colour of `ks` has an entry. */
  lemma {:induction false} CountCovers(ks: seq<string>)
    ensures forall j :: 0 <= j < |ks| ==> IndexOf(Count(ks), ks[j]) >= 0
  {
    if ks != [] {
      var n := |ks| - 1;
      var a, x := ks[..n], ks[n];
      CountCovers(a);
      var t := Count(a);
      var r := Count(ks);
      forall j | 0 <= j < |ks|
        ensures IndexOf(r, ks[j]) >= 0
      {
        if j < n {
          assert ks[j] == a[j];
          var p := IndexOf(t, a[j]);
          NotAbsent(r, ks[j], p);
        } else if IndexOf(t, x) >= 0 {
          NotAbsent(r, x, IndexOf(t, x));
        } else {
          NotAbsent(r, x, |t|);
        }
      }
    }
  }

  /** A key with an entry is found. */
  lemma NotAbsent(t: Tally, k: string, p: int)
    requires 0 <= p < |t| && t[p].0 == k
    ensures IndexOf(t, k) >= 0
  {
  }

  /** Index of the first occurrence of `k` in `ks`. */
  function FirstIndex(ks: seq<string>, k: string): (i: nat)
    requires k in ks
    ensures i < |ks| && ks[i] == k
    ensures forall j :: 0 <= j < i ==> ks[j] != k
  {
    if ks[0] == k then 0 else FirstIndex(ks[1..], k) + 1
  }

  lemma {:induction false} FirstIndexExtend(ks: seq<string>, x: string, k: string)
    requires k in ks
    ensures FirstIndex(ks + [x], k) == FirstIndex(ks, k)
  {
    if ks[0] != k {
      assert (ks + [x])[1..] == ks[1..] + [x];
      FirstIndexExtend(ks[1..], x, k);
    }
  }

  /** The entries follow the colours' first appearances in `ks`. */
  lemma {:induction false} CountOrder(ks: seq<string>)
    ensures forall i :: 0 <= i < |Count(ks)| ==> Count(ks)[i].0 in ks
    ensures forall i, j :: 0 <= i < j < |Count(ks)| ==>
      FirstIndex(ks, Count(ks)[i].0) < FirstIndex(ks, Count(ks)[j].0)
  {
    CountCounts(ks);
    if ks != [] {
      var n := |ks| - 1;
      CountOrder(ks[..n]);
      CountOrderStep(ks[..n], ks[n]);
      assert ks == ks[..n] + [ks[n]];
    }
  }

  /** Tallying one more colour keeps the entries in first-appearance order. */
  lemma CountOrderStep(a: seq<string>, x: string)
    requires forall i :: 0 <= i < |Count(a)| ==> Count(a)[i].0 in a
    requires forall i, j :: 0 <= i < j < |Count(a)| ==>
      FirstIndex(a, Count(a)[i].0) < FirstIndex(a, Count(a)[j].0)
    ensures forall i :: 0 <= i < |Count(a + [x])| ==> Count(a + [x])[i].0 in a + [x]
    ensures forall i, j :: 0 <= i < j < |Count(a + [x])| ==>
      FirstIndex(a + [x], Count(a + [x])[i].0) < FirstIndex(a + [x], Count(a + [x])[j].0)
  {
    CountCounts(a + [x]);
    forall i, j | 0 <= i < j < |Count(a + [x])|
      ensures FirstIndex(a + [x], Count(a + [x])[i].0) < FirstIndex(a + [x], Count(a + [x])[j].0)
    {
      PairStep(a, x, i, j);
    }
  }

  /** One pair of entries after tallying `x`: two old entries keep their
      order, and a new entry for `x` comes after every old one. */
  lemma PairStep(a: seq<string>, x: string, i: int, j: int)
    requires 0 <= i < j < |Count(a + [x])|
    requires forall k :: 0 <= k < |Count(a)| ==> Count(a)[k].0 in a
    requires j < |Count(a)| ==> FirstIndex(a, Count(a)[i].0) < FirstIndex(a, Count(a)[j].0)
    ensures Count(a + [x])[i].0 in a + [x] && Count(a + [x])[j].0 in a + [x]
    ensures FirstIndex(a + [x], Count(a + [x])[i].0) < FirstIndex(a + [x], Count(a + [x])[j].0)
  {
    var ks := a + [x];
    assert ks[..|ks| - 1] == a;
    var t := Count(a);
    var r := Count(ks);
    assert r == Bump(t, x);
    assert r[i].0 == t[i].0 && t[i].0 in a;
    FirstIndexExtend(a, x, t[i].0);
    if j < |t| {
      assert r[j].0 == t[j].0 && t[j].0 in a;
      FirstIndexExtend(a, x, t[j].0);
    } else {
      CountCovers(a);
      assert x !in a;
      assert FirstIndex(ks, x) == |a|;
    }
  }

  /** Sum of the counts. */
  function Total(t: Tally): nat {
    if t == [] then 0 else t[0].1 + Total(t[1..])
  }

  lemma {:induction false} TotalBump(t: Tally, i: nat, k: string)
    requires i < |t|
    ensures Total(t[i := (k, t[i].1 + 1)]) == Total(t) + 1
  {
    if i > 0 {
      assert t[i := (k, t[i].1 + 1)][1..] == t[1..][i - 1 := (k, t[i].1 + 1)];
      TotalBump(t[1..], i - 1, k);
    }
  }

  lemma {:induction false} TotalAppend(t: Tally, e: (string, nat))
    ensures Total(t + [e]) == Total(t) + e.1
  {
    if t != [] {
      assert (t + [e])[1..] == t[1..] + [e];
      TotalAppend(t[1..], e);
    }
  }

  /** The counts add up to the number of colours tallied. */
  lemma {:induction false} CountTotal(ks: seq<string>)
    ensures Total(Count(ks)) == |ks|
  {
    if ks != [] {
      var n := |ks| - 1;
      CountTotal(ks[..n]);
      var t := Count(ks[..n]);
      var i := IndexOf(t, ks[n]);
      assert Count(ks) == Bump(t, ks[n]);
      if i >= 0 {
        assert Bump(t, ks[n]) == t[i := (ks[n], t[i].1 + 1)];
        TotalBump(t, i, ks[n]);
      } else {
        TotalAppend(t, (ks[n], 1));
      }
    }
  }

  /** The `Object.entries(counts).forEach` scan keeping the first entry whose
      count beats the best so far (strict `>`, starting from 0). */
  method MostUsed(t: Tally) returns (color: string, count: nat)
    ensures forall i :: 0 <= i < |t| ==> t[i].1 <= count
    ensures count == 0 ==> color == ""
    ensures count > 0 ==> exists j :: (0 <= j < |t| && t[j] == (color, count) &&
                                       forall k :: 0 <= k < j ==> t[k].1 < count)
  {
    color, count := "", 0;
    var i := 0;
    while i < |t|
      invariant 0 <= i <= |t|
      invariant forall m :: 0 <= m < i ==> t[m].1 <= count
      invariant count == 0 ==> color == ""
      invariant count > 0 ==> exists j :: (0 <= j < i && t[j] == (color, count) &&
                                         forall k :: 0 <= k < j ==> t[k].1 < count)
    {
      if t[i].1 > count {
        color, count := t[i].0, t[i].1;
      }
      i := i + 1;
    }
  }

  /** What the scan's result means for the tallied colours: it is the most
      frequent colour, and among equally frequent colours the one that
      appeared first. */
  lemma Winner(ks: seq<string>, color: string, count: nat)
    requires ks != []
    requires forall i :: 0 <= i < |Count(ks)| ==> Count(ks)[i].1 <= count
    requires count > 0 ==> exists j :: (0 <= j < |Count(ks)| && Count(ks)[j] == (color, count) &&
                                        forall k :: 0 <= k < j ==> Count(ks)[k].1 < count)
    ensures color in ks && multiset(ks)[color] == count
    ensures forall d :: d in ks ==> multiset(ks)[d] <= count
    ensures forall d :: d in ks && multiset(ks)[d] == count ==> FirstIndex(ks, color) <= FirstIndex(ks, d)
  {
    var t := Count(ks);
    var q0 := EntryOf(ks, ks[0]);
    assert t[q0].1 <= count;
    var j :| 0 <= j < |t| && t[j] == (color, count) && forall k :: 0 <= k < j ==> t[k].1 < count;
    EntryCounts(ks, j);
    forall d | d in ks
      ensures multiset(ks)[d] <= count
      ensures multiset(ks)[d] == count ==> FirstIndex(ks, color) <= FirstIndex(ks, d)
    {
      var q := EntryOf(ks, d);
      assert t[q].1 <= count;
      if multiset(ks)[d] == count && q != j {
        assert j < q;
        EntriesOrdered(ks, j, q);
      }
    }
  }

  /** The entry of a tallied colour, and its count. */
  lemma EntryOf(ks: seq<string>, d: string) returns (q: nat)
    requires d in ks
    ensures q < |Count(ks)| && Count(ks)[q].0 == d && Count(ks)[q].1 == multiset(ks)[d]
  {
    CountCovers(ks);
    CountCounts(ks);
    var i :| 0 <= i < |ks| && ks[i] == d;
    q := IndexOf(Count(ks), ks[i]);
  }

  /** An entry counts the occurrences of its colour. */
  lemma EntryCounts(ks: seq<string>, i: nat)
    requires i < |Count(ks)|
    ensures Count(ks)[i].0 in ks && Count(ks)[i].1 == multiset(ks)[Count(ks)[i].0]
  {
    CountCounts(ks);
  }

  /** An earlier entry belongs to a colour that appeared earlier. */
  lemma EntriesOrdered(ks: seq<string>, i: nat, j: nat)
    requires i < j < |Count(ks)|
    ensures Count(ks)[i].0 in ks && Count(ks)[j].0 in ks
    ensures FirstIndex(ks, Count(ks)[i].0) < FirstIndex(ks, Count(ks)[j].0)
  {
    CountOrder(ks);
  }
}
